=== FILE: README.md ===
# MoviePrint video player and grid editor, modelled in Dafny

MoviePrint builds a contact sheet ("movie print") of thumbnails from a video.
This project models two parts of its user interface:

- The frame navigation of the video player component (`VideoPlayer.js`):
  - decoding a key press into an action;
  - stepping the current frame by a clamped amount;
  - keeping the current scene in step with the current frame, with at most one selection notification per move;
  - jumping to scene boundaries and to neighbouring thumbs;
  - the change-or-add decision and its button caption;
  - the cut/merge button and the Enter key in the timeline view;
  - the slot and cursor arithmetic of the filmstrip drawn under the player.
- The grid editor of the application container (`App.js`):
  - temporary and committed column and thumb counts, with the recapture switch, apply and cancel;
  - the row count shown for a grid;
  - the container resize rule;
  - the show-hidden-thumbs toggle.

Every handler is a pure function. It takes the props and the component state as they were before the handler ran, because the handler reads `this.state` before its own `setState` calls land. It returns the new state and the callbacks it fired, in order, as a sequence of `Effect`s.

Files:

- `wrappers.dfy`: `Option`, which stands for JavaScript's `undefined`.
- `utils.dfy`: the imported helpers:
  - `limitRange` as `Clamp`;
  - `Math.ceil` of a quotient as `CeilDiv`;
  - `getSceneFromFrameNumber` as `SceneAt`;
  - `thumbs.find` as `FindThumb`;
  - `getPreviousThumb` and `getNextThumb`;
  - facts about scene partitions and thumb order.
- `filmstrip.dfy`: the slot/cursor loop of `updateOpencvVideoCanvas`.
- `video_player.dfy`: the player's handlers.
- `video_player_lemmas.dfy`: properties relating several handlers, the scene list and the rendered buttons.
- `app.dfy`: the grid editor, the resize rule and the visibility filter.

## Model

| member | source | states |
|---|---|---|
| Utils.Clamp | app/components/VideoPlayer.js:303 | the frame is limited to [lo, hi]: unchanged inside the range, lo below it, hi above it |
| Utils.CeilDiv | app/containers/App.js:541 | `Math.ceil(a / b)` for b > 0 is the unique q with b(q−1) < a ≤ bq |
| Utils.CeilDivUnique | app/containers/App.js:575-576 | any q with b(q−1) < a ≤ bq equals the ceiling quotient |
| Utils.CeilDivOfMultiple | app/containers/App.js:544 | the ceiling of (r·b)/b is r, so whole rows survive a column change |
| Utils.SceneAt | app/components/VideoPlayer.js:349 | the scene lookup returns a listed scene that contains the frame, or nothing when no scene contains it |
| Utils.ContiguousOrdered | app/components/VideoPlayer.js:349 | in a back-to-back scene list a later scene starts at or after the end of an earlier one |
| Utils.ContainingSceneUnique | app/components/VideoPlayer.js:349 | in a back-to-back scene list at most one scene contains a frame |
| Utils.SceneAtFindsContaining | app/components/VideoPlayer.js:349 | a scene containing the frame is the one the lookup returns |
| Utils.ContiguousHasNoGaps | app/components/VideoPlayer.js:349 | every frame from the first start up to the last end lies in some scene |
| Utils.SceneAtInRange | app/components/VideoPlayer.js:349 | for scenes that partition the video, the lookup finds a scene exactly for the frames 0 … frameCount−1 |
| Utils.SceneWithinFrames | app/components/VideoPlayer.js:540-543 | every scene of a partition lies inside the video: its start is a frame (at least 0) and its end is at most the frame count |
| Utils.PositionOf | app/components/VideoPlayer.js:494 | the first position holding the id; no earlier position holds it; nothing when no position does |
| Utils.FindThumb | app/components/VideoPlayer.js:494 | `find` returns a listed thumb with the id, and nothing exactly when no thumb carries it |
| Utils.PreviousThumb | app/components/VideoPlayer.js:508 | the thumb listed just before the selected one; nothing when the selected one is first or absent |
| Utils.NextThumb | app/components/VideoPlayer.js:510 | the thumb listed just after the selected one; nothing when the selected one is last or absent |
| Utils.PositionOfUnique | app/components/VideoPlayer.js:508-510 | with distinct ids the found position is the only one holding the id |
| Utils.PreviousThumbIsNearestBelow | app/components/VideoPlayer.js:508 | with thumbs in index order, the previous thumb has the largest index below the selected one, and exists exactly when one does |
| Utils.NextThumbIsNearestAbove | app/components/VideoPlayer.js:510 | with thumbs in index order, the next thumb has the smallest index above the selected one, and exists exactly when one does |
| Utils.NextThenPreviousThumb | app/components/VideoPlayer.js:508-510 | with distinct ids, the previous of the next thumb is the thumb itself |
| Utils.PreviousThenNextThumb | app/components/VideoPlayer.js:508-510 | with distinct ids, the next of the previous thumb is the thumb itself |
| Filmstrip.GapBefore | app/components/VideoPlayer.js:272 | the gap after a slice is 8 exactly when the next slice's frame is a cut, and 1 when it is not |
| Filmstrip.Layout | app/components/VideoPlayer.js:268-296 | slice i shows frame start+i, where `WindowStart` is `currentFrame − ⌊n/2⌋ + offsetCorrection` and n is `SliceCount` (one fewer in the grid view), and is drawn only for a non-negative frame and a non-empty read; the cursor starts at 0 and moves by the slice width plus the gap; slices never overlap; the final cursor is the reference sum |
| Filmstrip.CursorAdvances | app/components/VideoPlayer.js:296 | every slice ends strictly before any later slice starts |
| Filmstrip.CursorClosedForm | app/components/VideoPlayer.js:268-296 | the cursor before slice i is the sum of the earlier widths, plus 1 per slice, plus 7 more per slice followed by a cut |
| Filmstrip.CurrentFrameSlot | app/components/VideoPlayer.js:245-252 | with `SliceCount` and `WindowStart` as the loop computes them, the current frame sits in slot ⌊n/2⌋ − offsetCorrection, which is inside the strip; for an odd array size, the timeline centres it and the grid puts one frame more after it than before it |
| VideoPlayer.FromFrame | app/components/VideoPlayer.js:344-368 | the frame becomes current; a selection fires, at most once, exactly when a scene holds the frame and it differs from the current scene; the current scene changes only then |
| VideoPlayer.StepPosition | app/components/VideoPlayer.js:300-310 | the frame moves by the step and is clamped to the video; the effects are exactly the position update's at the landing frame followed by the filmstrip redraw there, with at most one selection |
| VideoPlayer.JumpToScene | app/components/VideoPlayer.js:523-552 | back inside a scene lands on its start; back at a start lands on the previous scene's start, selecting it before the position update and redraw; forward lands on the current scene's end and selects the scene there (`Announce`, lines 545-547); always clamped, then redrawn |
| VideoPlayer.GoToThumb | app/components/VideoPlayer.js:513-517 | selects the thumb, then runs the position update at its clamped frame, then redraws the filmstrip there; these are all its effects |
| VideoPlayer.JumpToThumb | app/components/VideoPlayer.js:478-521 | interval sheet: with a neighbour it is exactly `GoToThumb` on that neighbour, otherwise nothing; scene sheet: selects the neighbouring scene, and is exactly `GoToThumb` on the thumb carrying its id when there is one; with no neighbouring scene (only possible without thumbs) nothing happens |
| VideoPlayer.ChangeOrAdd | app/components/VideoPlayer.js:563-600 | only for a listed selected thumb, so nothing happens without thumbs; alt adds after it (index + 1) and takes precedence over shift, which adds before it (index); either way the new thumb is selected; with no modifier the selected thumb is moved to the current frame |
| VideoPlayer.CutMergeButtonOf | app/components/VideoPlayer.js:841-857 | the button is shown exactly on a scene sheet in the timeline view away from frame 0; it reads MERGE exactly on a cut and does what it reads |
| VideoPlayer.DecodeKey | app/components/VideoPlayer.js:147-217 | nothing inside an INPUT or for other keys; an arrow with shift and alt jumps (scene in the timeline, thumb in the grid); any other arrow steps by `ArrowStep`: large (alt), small (shift) or normal, negated for left; Enter cuts or merges in the timeline and changes or adds in the grid |
| VideoPlayer.Perform | app/components/VideoPlayer.js:160-212 | each intent runs its handler: a step runs the clamped step, a jump the scene or thumb jump, Enter's change the scene thumb change (lines 554-561) or change-or-add; cut and merge fire exactly one cut or merge at the given frame; none of cut, merge, change or add moves the player; Ignore does nothing |
| VideoPlayer.KeyPress | app/components/VideoPlayer.js:147-217 | a key inside an INPUT does nothing; an arrow without both shift and alt is the clamped step; with both it is the scene jump in the timeline and the thumb jump in the grid; Enter in the timeline merges on a cut and cuts elsewhere; Enter in the grid changes the current scene's thumb on a scene sheet and runs change-or-add on an interval sheet; any other key does nothing |
| VideoPlayerLemmas.PartitionHasFrames | app/components/VideoPlayer.js:303 | a scene list covering the video implies at least one frame, so the clamp range is not empty |
| VideoPlayerLemmas.FromFrameSettles | app/components/VideoPlayer.js:344-368 | after moving to any frame of the video, the current scene is the scene that holds it |
| VideoPlayerLemmas.FromFrameIdempotent | app/components/VideoPlayer.js:349-358 | a second move to the same frame fires nothing and changes nothing |
| VideoPlayerLemmas.StepThereAndBack | app/components/VideoPlayer.js:300-310 | stepping by d and then by −d inside the video restores a settled state |
| VideoPlayerLemmas.KeyPressKeepsSceneInSync | app/components/VideoPlayer.js:147-217 | every key either leaves the state alone or leaves the current scene equal to the scene of the current frame |
| VideoPlayerLemmas.BackInsideSceneLandsOnStart | app/components/VideoPlayer.js:535-536 | back from inside a scene lands on its start, with no selection |
| VideoPlayerLemmas.BackFromStartLandsOnPreviousScene | app/components/VideoPlayer.js:538-551 | back from a scene start lands on the previous scene's start, and that scene is selected twice |
| VideoPlayerLemmas.ForwardLandsOnNextScene | app/components/VideoPlayer.js:541-551 | forward lands on the next scene's start, and that scene is selected twice |
| VideoPlayerLemmas.ForwardFromLastSceneStopsAtLastFrame | app/components/VideoPlayer.js:541-549 | forward from the last scene is clamped to the last frame and selects nothing |
| VideoPlayerLemmas.BackTwiceFromInsideScene | app/components/VideoPlayer.js:523-552 | back twice from inside scene i lands on its start and then on the start of scene i−1 |
| VideoPlayerLemmas.ForwardThenBackReturnsToSceneStart | app/components/VideoPlayer.js:523-552 | forward then back returns to the start of the scene the player was in |
| VideoPlayerLemmas.SceneJumpSelectsLandingScene | app/components/VideoPlayer.js:523-552 | every selection a scene jump fires names the scene of the landing frame, and that scene becomes current |
| VideoPlayerLemmas.IntervalForwardJumpFollowsIndexOrder | app/components/VideoPlayer.js:505-518 | with thumbs in index order, forward selects the thumb with the next larger index, and does nothing exactly when there is none |
| VideoPlayerLemmas.IntervalBackJumpFollowsIndexOrder | app/components/VideoPlayer.js:505-518 | with thumbs in index order, back selects the thumb with the next smaller index, and does nothing exactly when there is none |
| VideoPlayerLemmas.IntervalThumbJumpRoundTrip | app/components/VideoPlayer.js:505-518 | forward and then back, once the new thumb is selected, reselects the original thumb and lands on its clamped frame |
| VideoPlayerLemmas.ArrowKeysAreMirrored | app/components/VideoPlayer.js:177-210 | left asks for the negated step of right under the same modifiers, and both jump, in opposite directions, with shift and alt |
| VideoPlayerLemmas.StepTableMatchesButtonTooltips | app/components/VideoPlayer.js:805-952 | with the step table [1, 10, 100], shift, plain and alt arrows move 1, 10 and 100 frames, as the buttons' tooltips say |
| VideoPlayerLemmas.EnterMatchesCutMergeButton | app/components/VideoPlayer.js:161-170 | whenever the cut/merge button is shown, Enter does what clicking it does |
| VideoPlayerLemmas.EnterCutsAtFrameZero | app/components/VideoPlayer.js:161-170 | at frame 0 in the timeline view the button is hidden, yet Enter still asks for a cut there |
| VideoPlayerLemmas.CutsOfAreNonZeroStarts | app/components/VideoPlayer.js:154 | the cut list derived from the scenes holds exactly the non-zero scene starts |
| VideoPlayerLemmas.EnterMergesExactlyAtSceneStarts | app/components/VideoPlayer.js:154-170 | with that cut list, Enter merges exactly at a non-zero scene start and cuts everywhere else |
| VideoPlayerLemmas.ChangeOrAddCaptionMatchesAction | app/components/VideoPlayer.js:884-897 | the caption `ChangeOrAddLabel` picks (line 897), ADD AFTER, ADD BEFORE or CHANGE, holds exactly when a click inserts at index + 1, inserts at index, or moves the selected thumb |
| App.SetColumnAndThumbCount | app/containers/App.js:30-37 | temporary and committed counts become the given ones, so nothing is pending |
| App.RowCount | app/containers/App.js:731-734 | the displayed row count is the fewest rows of the given width that hold all thumbs |
| App.ChangeRow | app/containers/App.js:534-537 | the temporary thumb count becomes whole rows of the temporary width, whose displayed row count is the chosen one; nothing else changes; the sheet is rescaled |
| App.ChangeColumn | app/containers/App.js:539-553 | the temporary width changes; with recapture on, the thumb count becomes the new width times the old row count, for any new width, so a positive width keeps the row count; otherwise it is kept; committed counts are untouched; the width is stored with a loaded file, then the sheet is rescaled |
| App.ChangeColumnAndApply | app/containers/App.js:555-568 | the width is set and committed at once; thumb counts are untouched; the width is stored with a loaded file, then the sheet is rescaled |
| App.ReCaptureClick | app/containers/App.js:570-580 | switching on rounds the temporary thumb count up to whole rows; switching off restores the committed count |
| App.ReCaptureIdempotent | app/containers/App.js:570-580 | rounding up to whole rows twice is the same as once |
| App.ReCaptureIsLeastMultiple | app/containers/App.js:575-576 | any whole number of rows of the width that holds the old count is at least the rounded count, so rounding adds the fewest rows |
| App.ApplyClick | app/containers/App.js:582-597 | commits the width always, and the thumb count only with recapture on, after which nothing is pending; with recapture on the thumbs are first recaptured at the committed counts; the width is stored with a loaded file; the editor is closed last |
| App.CancelClick | app/containers/App.js:599-605 | restores the temporary counts from the committed ones and closes the editor |
| App.ChangeColumnAndApplyIsChangeThenApply | app/containers/App.js:539-597 | with recapture off, change-and-apply commits the same counts as a column change followed by apply |
| App.DisplayedRows | app/containers/App.js:731-734 | both displayed row counts are the fewest rows holding the respective thumb counts |
| App.EditsKeepCommittedCounts | app/containers/App.js:534-580 | any session of row, column and recapture edits leaves the committed counts alone |
| App.CancelUndoesEdits | app/containers/App.js:599-605 | cancel after any session of edits restores the counts loaded at its start |
| App.CancelAfterApplyIsNoOp | app/containers/App.js:582-605 | after apply with recapture on, cancel changes nothing |
| App.ColumnEditsKeepRows | app/containers/App.js:539-545 | with recapture on, any sequence of column changes keeps the temporary row count |
| App.InnerSize | app/containers/App.js:411-417 | the room never exceeds the client size, and equals it exactly when a file is loaded and both sidebars are closed |
| App.InnerSizeAllowances | app/containers/App.js:411-417 | each open sidebar takes 350 of the width and none of the height; no loaded file holds back 700 of the width and 100 of the height |
| App.Resize | app/containers/App.js:408-431 | without the content element it returns undefined and changes nothing; otherwise it returns true, and both dimensions are replaced, with a rescale, exactly when either is more than 5 off |
| App.ResizeWithinTolerance | app/containers/App.js:418-425 | after a resize both stored dimensions are within 5 of the room |
| App.ResizeIdempotent | app/containers/App.js:418-425 | a second resize on the same page changes nothing and does not rescale |
| App.ShowThumbs | app/containers/App.js:480-487 | the filter becomes SHOW_ALL or SHOW_VISIBLE, and a standard filter always changes |
| App.ShowHiddenThumbs | app/containers/App.js:645-652 | the checkbox picks SHOW_ALL when ticked and SHOW_VISIBLE otherwise |
| App.ShowThumbsInvolution | app/containers/App.js:480-487 | toggling twice from SHOW_VISIBLE or SHOW_ALL gives back the original |
| App.ShowThumbsIsCheckboxFlip | app/containers/App.js:480-487 | the toggle equals ticking the checkbox exactly when the filter was SHOW_VISIBLE |

Observations the proofs bring out:

- A scene jump that changes scene selects the landing scene twice. The jump itself selects it, and so does the position update that follows. `BackFromStartLandsOnPreviousScene` and `ForwardLandsOnNextScene` state both selections.
- In the timeline view, Enter at frame 0 asks for a cut there although the cut/merge button is hidden (`EnterCutsAtFrameZero`).
- The player starts with a placeholder scene `{start: 0, length: 0}` that has no id. It is modelled as `currentScene == None`.
  - The `currentScene === undefined` test in `updatePositionFromFrame` never sees an undefined scene.
  - The id comparison with the placeholder's missing id always differs.
  - So the first move into a scene always selects it.

## Left out

- Time and pixel mapping: `updatePositionFromTime`, `updateTimeFromPosition`, `updateTimeFromFrameNumber`, `mapRange`, the play head position and the timeline in/out markers. They are floating-point screen geometry.
- The HTML5 video element and its `currentTime`, playback, and the mouse drag on the timeline. These are browser I/O.
- The OpenCV work of the filmstrip (seeking, reading, rescaling, cropping, colour conversion, `putImageData`) and the float `sliceXPos`. The frame widths and whether each read was empty are parameters of `Filmstrip.Layout`.
- Filmstrip.Layout: does not state that the strip fits the container width. `getSliceWidthArrayForCut` produces the widths and is not part of this model, so the widths are parameters.
- `setPosition` is not part of this model. A slot's frame is the frame the loop computes, not a frame the video actually decodes for a negative offset.
- `getScaleValueObject` and `updateScaleValue`: floating-point layout. A rescale is modelled only as the `rescaled` flag of `App.Resize` and the `RescaleSheet` effect of the grid handlers.
- The scene cut and merge reducers, the Redux store, IPC to the main process and dialogs. The player records the callbacks it fires as `Effect`s and the grid editor records its calls (`updateScaleValue`, the `updateFileColumnCount` dispatch, `onThumbCountChange`, `hideEditGrid`) as `AppEffect`s; what those calls then do is not modelled.
- `setTimeout` in `onChangeOrAddClick`: the new thumb's selection after 500 ms is modelled as an immediate `SelectThumb` effect that follows the `AddThumb`. The call's second argument, the current frame, is not recorded in `SelectThumb`; it equals the frame of the `AddThumb` just before it.
- `uuidV4()`: the new thumb id is a parameter.
- Lifecycle methods, the key listener registration and `stopPropagation`/`blur`.
- Scene.js: the scene strip component.
- VideoPlayer.JumpToScene: requires the scene before the current start to exist when jumping back from a scene start. The source dereferences `newSceneToSelect.start` without a check and throws otherwise.
- VideoPlayer.JumpToThumb: requires the neighbouring scene to exist on a scene sheet with at least one thumb. The search callback reads `newSceneToSelect.sceneId` before the check; with no thumbs the callback never runs and nothing happens, which is modelled.
- VideoPlayer.ChangeOrAdd: requires a selected thumb when there are thumbs. The search callback reads `selectedThumb.thumbId` without a check; with no thumbs it never runs and nothing happens, which is modelled.
- App.ChangeColumn: requires a positive temporary width with recapture on. With width 0, `Math.ceil` yields Infinity or NaN, which are not modelled.
- App.ReCaptureClick: requires a positive temporary width when switching on, for the same reason.
- App.RowCount: requires a positive width. The source shows Infinity or NaN for width 0.
- `SHEET_VIEW` and `SHEET_TYPE` are modelled with their two values only. `visibilityFilter` collapses every other value into the single `OtherFilter`, since the handlers only tell `SHOW_VISIBLE` apart.
- The utility module (`limitRange`, `getSceneFromFrameNumber`, `getPreviousThumb`, `getNextThumb`) is not part of this model. Each helper has the body its name and its call sites imply: a clamp, the first scene containing the frame, and list neighbours of the thumb carrying the id.
- Props are fixed for the length of one handler call. The parent's reaction to a selection (a new `selectedThumb`) is modelled by the caller passing new props, as `IntervalThumbJumpRoundTrip` does.

=== FILE: app.dfy ===
/** The grid editor of the application container: temporary column/thumb
    counts the user edits in the settings sidebar, the committed counts the
    sheet is built from, the "recapture" switch that lets the thumb count
    change, and the container-resize and visibility-filter rules. */
module App {
  import opened Wrappers
  import opened Utils

  /** The counter part of the container's state */
  datatype GridEdit = GridEdit(
    columnCountTemp: int,
    thumbCountTemp: int,
    columnCount: int,
    thumbCount: int,
    reCapture: bool)

  /** Calls a grid handler makes besides setting state, in order */
  datatype AppEffect =
    | RescaleSheet                                // updateScaleValue()
    | StoreFileColumnCount(columns: int)          // dispatch of updateFileColumnCount for the loaded file
    | RecaptureThumbs(columns: int, thumbs: int)  // onThumbCountChange(columns, thumbs)
    | HideEditGrid                                // hideEditGrid()

  /** A grid handler's new counts and the calls it made */
  datatype GridUpdate = GridUpdate(grid: GridEdit, effects: seq<AppEffect>)

  /** The column count reaches the file's record only when a file is loaded */
  function StoreColumns(hasFile: bool, columns: int): seq<AppEffect> {
    if hasFile then [StoreFileColumnCount(columns)] else []
  }

  /** Temporary counts equal to the committed ones: nothing pending */
  predicate Synced(g: GridEdit) {
    g.columnCountTemp == g.columnCount && g.thumbCountTemp == g.thumbCount
  }

  /** Same committed counts and recapture switch; only temporaries may differ */
  predicate SameCommitted(g: GridEdit, h: GridEdit) {
    g.columnCount == h.columnCount && g.thumbCount == h.thumbCount && g.reCapture == h.reCapture
  }

  /** `setColumnAndThumbCount(that, columnCount, thumbCount)`: load counts as
      both temporary and committed */
  function SetColumnAndThumbCount(g: GridEdit, columnCount: int, thumbCount: int): (g': GridEdit)
    ensures Synced(g')
    ensures g'.columnCount == columnCount && g'.thumbCount == thumbCount
    ensures g'.reCapture == g.reCapture
  {
    GridEdit(columnCount, thumbCount, columnCount, thumbCount, g.reCapture)
  }

  /** Rows needed for `thumbs` thumbs in `columns` columns:
      `Math.ceil(thumbs / columns)` */
  function RowCount(thumbs: int, columns: int): (rows: int)
    requires columns > 0
    ensures columns * (rows - 1) < thumbs <= columns * rows
  {
    CeilDiv(thumbs, columns)
  }

  /** `onChangeRow(value)`: a whole number of rows of the temporary width,
      then a rescale */
  function ChangeRow(g: GridEdit, rows: int): (u: GridUpdate)
    ensures u.grid.thumbCountTemp == g.columnCountTemp * rows
    ensures u.grid.columnCountTemp == g.columnCountTemp && SameCommitted(g, u.grid)
    ensures g.columnCountTemp > 0 ==> RowCount(u.grid.thumbCountTemp, u.grid.columnCountTemp) == rows
    ensures u.effects == [RescaleSheet]
  {
    var c := g.columnCountTemp;
    assert c > 0 ==> CeilDiv(rows * c, c) == rows by {
      if c > 0 { CeilDivOfMultiple(rows, c); }
    }
    GridUpdate(g.(thumbCountTemp := c * rows), [RescaleSheet])
  }

  /** `onChangeColumn(value)`: a new temporary width; with recapture on, the
      temporary thumb count follows so that the row count stays the same. The
      width is stored with the loaded file, then the sheet is rescaled. */
  function ChangeColumn(g: GridEdit, value: int, hasFile: bool): (u: GridUpdate)
    requires g.reCapture ==> g.columnCountTemp > 0
    ensures u.grid.columnCountTemp == value && SameCommitted(g, u.grid)
    ensures !g.reCapture ==> u.grid.thumbCountTemp == g.thumbCountTemp
    ensures g.reCapture ==> u.grid.thumbCountTemp == value * RowCount(g.thumbCountTemp, g.columnCountTemp)
    ensures g.reCapture && value > 0 ==>
      && u.grid.thumbCountTemp == value * RowCount(u.grid.thumbCountTemp, value)
      && RowCount(u.grid.thumbCountTemp, value) == RowCount(g.thumbCountTemp, g.columnCountTemp)
    ensures u.effects == StoreColumns(hasFile, value) + [RescaleSheet]
  {
    var effects := StoreColumns(hasFile, value) + [RescaleSheet];
    if g.reCapture then
      var rows := RowCount(g.thumbCountTemp, g.columnCountTemp);
      assert value > 0 ==> CeilDiv(rows * value, value) == rows by {
        if value > 0 { CeilDivOfMultiple(rows, value); }
      }
      GridUpdate(g.(columnCountTemp := value, thumbCountTemp := rows * value), effects)
    else
      GridUpdate(g.(columnCountTemp := value), effects)
  }

  /** `onChangeColumnAndApply(value)`: set and commit the width at once */
  function ChangeColumnAndApply(g: GridEdit, value: int, hasFile: bool): (u: GridUpdate)
    ensures u.grid.columnCountTemp == value && u.grid.columnCount == value
    ensures u.grid.thumbCountTemp == g.thumbCountTemp && u.grid.thumbCount == g.thumbCount
    ensures u.grid.reCapture == g.reCapture
    ensures u.effects == StoreColumns(hasFile, value) + [RescaleSheet]
  {
    GridUpdate(g.(columnCountTemp := value, columnCount := value), StoreColumns(hasFile, value) + [RescaleSheet])
  }

  /** `onReCaptureClick(checked)`. Switching on rounds the temporary thumb
      count up to whole rows; switching off restores the committed count. It
      makes no other call. */
  function ReCaptureClick(g: GridEdit, checked: bool): (g': GridEdit)
    requires checked ==> g.columnCountTemp > 0
    ensures g'.reCapture == checked
    ensures g'.columnCountTemp == g.columnCountTemp
    ensures g'.columnCount == g.columnCount && g'.thumbCount == g.thumbCount
    ensures !checked ==> g'.thumbCountTemp == g.thumbCount
    ensures checked ==>
      && g'.thumbCountTemp == g.columnCountTemp * RowCount(g'.thumbCountTemp, g.columnCountTemp)
      && g.thumbCountTemp <= g'.thumbCountTemp < g.thumbCountTemp + g.columnCountTemp
  {
    if !checked then
      g.(thumbCountTemp := g.thumbCount, reCapture := false)
    else
      var rows := CeilDiv(g.thumbCountTemp, g.columnCountTemp);
      CeilDivOfMultiple(rows, g.columnCountTemp);
      g.(thumbCountTemp := g.columnCountTemp * rows, reCapture := true)
  }

  /** Rounding up to whole rows is idempotent */
  lemma ReCaptureIdempotent(g: GridEdit)
    requires g.columnCountTemp > 0
    ensures ReCaptureClick(ReCaptureClick(g, true), true) == ReCaptureClick(g, true)
  {
    var once := ReCaptureClick(g, true);
    var rows := CeilDiv(g.thumbCountTemp, g.columnCountTemp);
    assert once.thumbCountTemp == rows * g.columnCountTemp;
    CeilDivOfMultiple(rows, g.columnCountTemp);
  }

  /** Any whole number of rows of the temporary width that holds the old
      count holds at least the rounded count: rounding picks the fewest rows */
  lemma ReCaptureIsLeastMultiple(g: GridEdit, rows: int)
    requires g.columnCountTemp > 0
    requires g.columnCountTemp * rows >= g.thumbCountTemp
    ensures ReCaptureClick(g, true).thumbCountTemp <= g.columnCountTemp * rows
  {
    var c := g.columnCountTemp;
    var needed := CeilDiv(g.thumbCountTemp, c);
    if rows < needed {
      MulMonotone(c, rows, needed - 1);
    } else {
      MulMonotone(c, needed, rows);
    }
  }

  /** `onApplyClick`: commit the width, and the thumb count only with
      recapture on, in which case the thumbs are recaptured at the committed
      counts; store the width with the loaded file; close the editor */
  function ApplyClick(g: GridEdit, hasFile: bool): (u: GridUpdate)
    ensures u.grid.columnCount == g.columnCountTemp
    ensures u.grid.thumbCount == (if g.reCapture then g.thumbCountTemp else g.thumbCount)
    ensures u.grid.columnCountTemp == g.columnCountTemp && u.grid.thumbCountTemp == g.thumbCountTemp
    ensures u.grid.reCapture == g.reCapture
    ensures g.reCapture ==> Synced(u.grid)
    ensures |u.effects| == (if g.reCapture then 1 else 0) + (if hasFile then 1 else 0) + 1
    ensures g.reCapture ==> u.effects[0] == RecaptureThumbs(u.grid.columnCount, u.grid.thumbCount)
    ensures hasFile ==> u.effects[|u.effects| - 2] == StoreFileColumnCount(u.grid.columnCount)
    ensures u.effects[|u.effects| - 1] == HideEditGrid
  {
    var recapture := if g.reCapture then [RecaptureThumbs(g.columnCountTemp, g.thumbCountTemp)] else [];
    var effects := recapture + StoreColumns(hasFile, g.columnCountTemp) + [HideEditGrid];
    if g.reCapture then GridUpdate(g.(columnCount := g.columnCountTemp, thumbCount := g.thumbCountTemp), effects)
    else GridUpdate(g.(columnCount := g.columnCountTemp), effects)
  }

  /** `onCancelClick`: drop the pending edits and close the editor */
  function CancelClick(g: GridEdit): (u: GridUpdate)
    ensures Synced(u.grid) && SameCommitted(g, u.grid)
    ensures u.effects == [HideEditGrid]
  {
    GridUpdate(g.(columnCountTemp := g.columnCount, thumbCountTemp := g.thumbCount), [HideEditGrid])
  }

  /** With recapture off, changing and applying the width at once commits
      the same counts as changing it and then applying */
  lemma ChangeColumnAndApplyIsChangeThenApply(g: GridEdit, value: int, hasFile: bool)
    requires !g.reCapture
    ensures ChangeColumnAndApply(g, value, hasFile).grid
         == ApplyClick(ChangeColumn(g, value, hasFile).grid, hasFile).grid
  {
  }

  /** Row counts shown in the settings sidebar, temporary and committed */
  function DisplayedRows(g: GridEdit): (rows: (int, int))
    requires g.columnCountTemp > 0 && g.columnCount > 0
    ensures g.columnCountTemp * (rows.0 - 1) < g.thumbCountTemp <= g.columnCountTemp * rows.0
    ensures g.columnCount * (rows.1 - 1) < g.thumbCount <= g.columnCount * rows.1
  {
    (RowCount(g.thumbCountTemp, g.columnCountTemp), RowCount(g.thumbCount, g.columnCount))
  }

  // ---------------------------------------------------------------------------
  // Edit sessions
  // ---------------------------------------------------------------------------

  /** The sidebar's edits that do not commit anything */
  datatype Edit = RowEdit(rows: int) | ColumnEdit(columns: int) | ReCaptureEdit(checked: bool)

  /** An edit keeps a positive temporary width */
  predicate EditAllowed(e: Edit) {
    e.ColumnEdit? ==> e.columns > 0
  }

  function ApplyEdit(g: GridEdit, e: Edit, hasFile: bool): (g': GridEdit)
    requires g.columnCountTemp > 0 && EditAllowed(e)
    ensures g'.columnCountTemp > 0
  {
    match e
    case RowEdit(r) => ChangeRow(g, r).grid
    case ColumnEdit(c) => ChangeColumn(g, c, hasFile).grid
    case ReCaptureEdit(b) => ReCaptureClick(g, b)
  }

  function ApplyEdits(g: GridEdit, edits: seq<Edit>, hasFile: bool): (g': GridEdit)
    requires g.columnCountTemp > 0
    requires forall k :: 0 <= k < |edits| ==> EditAllowed(edits[k])
    ensures g'.columnCountTemp > 0
    decreases |edits|
  {
    if |edits| == 0 then g else ApplyEdits(ApplyEdit(g, edits[0], hasFile), edits[1..], hasFile)
  }

  /** Edits change only the temporaries (and the recapture switch) */
  lemma {:induction false} EditsKeepCommittedCounts(g: GridEdit, edits: seq<Edit>, hasFile: bool)
    requires g.columnCountTemp > 0
    requires forall k :: 0 <= k < |edits| ==> EditAllowed(edits[k])
    ensures ApplyEdits(g, edits, hasFile).columnCount == g.columnCount
    ensures ApplyEdits(g, edits, hasFile).thumbCount == g.thumbCount
    decreases |edits|
  {
    if |edits| > 0 {
      EditsKeepCommittedCounts(ApplyEdit(g, edits[0], hasFile), edits[1..], hasFile);
    }
  }

  /** Cancel after any session of edits restores the counts loaded at its start */
  lemma CancelUndoesEdits(g: GridEdit, edits: seq<Edit>, hasFile: bool)
    requires Synced(g) && g.columnCountTemp > 0
    requires forall k :: 0 <= k < |edits| ==> EditAllowed(edits[k])
    ensures var h := CancelClick(ApplyEdits(g, edits, hasFile)).grid;
            h.columnCountTemp == g.columnCountTemp && h.thumbCountTemp == g.thumbCountTemp
            && h.columnCount == g.columnCount && h.thumbCount == g.thumbCount
  {
    EditsKeepCommittedCounts(g, edits, hasFile);
  }

  /** After apply with recapture on there is nothing left to cancel */
  lemma CancelAfterApplyIsNoOp(g: GridEdit, hasFile: bool)
    requires g.reCapture
    ensures CancelClick(ApplyClick(g, hasFile).grid).grid == ApplyClick(g, hasFile).grid
  {
  }

  /** With recapture on, any sequence of column changes keeps the row count
      of the temporary grid */
  lemma {:induction false} ColumnEditsKeepRows(g: GridEdit, widths: seq<int>, hasFile: bool)
    requires g.reCapture && g.columnCountTemp > 0
    requires forall k :: 0 <= k < |widths| ==> widths[k] > 0
    ensures var edits := seq(|widths|, k requires 0 <= k < |widths| => ColumnEdit(widths[k]));
            var h := ApplyEdits(g, edits, hasFile);
            h.reCapture && RowCount(h.thumbCountTemp, h.columnCountTemp) == RowCount(g.thumbCountTemp, g.columnCountTemp)
    decreases |widths|
  {
    var edits := seq(|widths|, k requires 0 <= k < |widths| => ColumnEdit(widths[k]));
    if |widths| > 0 {
      var g1 := ChangeColumn(g, widths[0], hasFile).grid;
      assert ApplyEdit(g, edits[0], hasFile) == g1;
      var rest := seq(|widths[1..]|, k requires 0 <= k < |widths[1..]| => ColumnEdit(widths[1..][k]));
      assert edits[1..] == rest;
      ColumnEditsKeepRows(g1, widths[1..], hasFile);
    }
  }

  // ---------------------------------------------------------------------------
  // Container size
  // ---------------------------------------------------------------------------

  datatype ContainerSize = ContainerSize(width: int, height: int)

  /** What the resize handler reads from the page: the content element's
      client size (None when the element is not mounted yet), the sidebars and
      whether a file is loaded */
  datatype Page = Page(client: Option<ContainerSize>, showLeftSidebar: bool, showRightSidebar: bool, fileLoaded: bool)

  /** Room left for the sheet: 350 per open sidebar, and 700 by 100 less
      while no file is loaded */
  function InnerSize(page: Page): (s: ContainerSize)
    requires page.client.Some?
    ensures s.width <= page.client.value.width && s.height <= page.client.value.height
    ensures s == page.client.value <==> page.fileLoaded && !page.showLeftSidebar && !page.showRightSidebar
  {
    var c := page.client.value;
    ContainerSize(
      c.width - (if page.showLeftSidebar then 350 else 0) - (if page.showRightSidebar then 350 else 0)
        - (if page.fileLoaded then 0 else 700),
      c.height - (if page.fileLoaded then 0 else 100))
  }

  /** Each open sidebar takes 350 of the width and none of the height; while
      no file is loaded, 700 of the width and 100 of the height are held back */
  lemma InnerSizeAllowances(page: Page)
    requires page.client.Some?
    ensures InnerSize(page.(showLeftSidebar := true)).width == InnerSize(page.(showLeftSidebar := false)).width - 350
    ensures InnerSize(page.(showRightSidebar := true)).width == InnerSize(page.(showRightSidebar := false)).width - 350
    ensures InnerSize(page.(showLeftSidebar := true)).height == InnerSize(page.(showLeftSidebar := false)).height
    ensures InnerSize(page.(showRightSidebar := true)).height == InnerSize(page.(showRightSidebar := false)).height
    ensures InnerSize(page.(fileLoaded := false)).width == InnerSize(page.(fileLoaded := true)).width - 700
    ensures InnerSize(page.(fileLoaded := false)).height == InnerSize(page.(fileLoaded := true)).height - 100
  {
  }

  function Abs(x: int): nat { if x < 0 then -x else x }

  /** Stored size after the handler, whether the scale was recomputed, and
      whether the handler returned `true` (rather than `undefined`) */
  datatype ResizeOutcome = ResizeOutcome(size: ContainerSize, rescaled: bool, ok: bool)

  /** `updatecontainerWidthAndHeight`: replace both stored dimensions, and
      recompute the scale, only when one of them is more than 5 off */
  function Resize(stored: ContainerSize, page: Page): (r: ResizeOutcome)
    ensures page.client.None? ==> r == ResizeOutcome(stored, false, false)
    ensures page.client.Some? ==>
      var target := InnerSize(page);
      && r.ok
      && (r.rescaled <==> Abs(stored.height - target.height) > 5 || Abs(stored.width - target.width) > 5)
      && r.size == (if r.rescaled then target else stored)
  {
    if page.client.None? then ResizeOutcome(stored, false, false)
    else
      var target := InnerSize(page);
      if Abs(stored.height - target.height) > 5 || Abs(stored.width - target.width) > 5 then
        ResizeOutcome(target, true, true)
      else
        ResizeOutcome(stored, false, true)
  }

  /** After a resize both stored dimensions are within 5 of the room left */
  lemma ResizeWithinTolerance(stored: ContainerSize, page: Page)
    requires page.client.Some?
    ensures var s := Resize(stored, page).size;
            Abs(s.width - InnerSize(page).width) <= 5 && Abs(s.height - InnerSize(page).height) <= 5
  {
  }

  /** A second resize on the same page changes nothing and does not rescale */
  lemma ResizeIdempotent(stored: ContainerSize, page: Page)
    ensures var once := Resize(stored, page);
            Resize(once.size, page).size == once.size && !Resize(once.size, page).rescaled
  {
  }

  // ---------------------------------------------------------------------------
  // Visibility filter
  // ---------------------------------------------------------------------------

  /** `visibilityFilter`: `SHOW_VISIBLE`, `SHOW_ALL`, or any other value */
  datatype VisibilityFilter = ShowVisible | ShowAll | OtherFilter

  /** `onShowThumbs`: SHOW_VISIBLE becomes SHOW_ALL, anything else SHOW_VISIBLE */
  function ShowThumbs(f: VisibilityFilter): (f': VisibilityFilter)
    ensures f'.ShowVisible? || f'.ShowAll?
    ensures f' != f || f.OtherFilter?
  {
    if f == ShowVisible then ShowAll else ShowVisible
  }

  /** `onShowHiddenThumbsClick(value)`: the sidebar checkbox */
  function ShowHiddenThumbs(value: bool): (f: VisibilityFilter)
    ensures f.ShowAll? <==> value
    ensures f.ShowVisible? <==> !value
  {
    if value then ShowAll else ShowVisible
  }

  /** Toggling twice from either standard filter gives it back */
  lemma ShowThumbsInvolution(f: VisibilityFilter)
    requires f == ShowVisible || f == ShowAll
    ensures ShowThumbs(ShowThumbs(f)) == f
  {
  }

  /** The toggle shows hidden thumbs exactly when they were not shown */
  lemma ShowThumbsIsCheckboxFlip(f: VisibilityFilter)
    ensures ShowThumbs(f) == ShowHiddenThumbs(f == ShowVisible)
  {
  }
}

=== FILE: filmstrip.dfy ===
/** The filmstrip under the player: a row of `VIDEOPLAYER_SLICE_ARRAY_SIZE`
    slices of consecutive frames around the current one, each slice followed
    by a 1px gap, or an 8px gap when the next slice's frame starts a scene.
    Only the slot indices and the horizontal cursor are modelled; decoding,
    rescaling, cropping and blitting the pixels are not. */
module Filmstrip {
  import opened VideoPlayer

  /** Gap after a slice whose successor is an ordinary frame */
  const SliceGap: int := 1
  /** Gap after a slice whose successor starts a new scene */
  const CutGap: int := 8

  /** Number of slices drawn: the grid view shows one slice fewer */
  function SliceCount(view: SheetView, arraySize: int): int {
    if view == GridView then arraySize - 1 else arraySize
  }

  /** Frame shown in the first slice: `currentFrame - floor(n / 2) + offsetCorrection` */
  function WindowStart(view: SheetView, arraySize: int, currentFrame: int): int {
    var half := SliceCount(view, arraySize) / 2;
    currentFrame - half + (if view == GridView then 1 else 0)
  }

  /** Gap that follows a slice, decided by the frame of the NEXT slice */
  function GapBefore(cuts: seq<int>, nextFrame: int): (g: int)
    ensures g >= SliceGap
    ensures g == CutGap <==> nextFrame in cuts
    ensures nextFrame !in cuts ==> g == SliceGap
  {
    if nextFrame in cuts then CutGap else SliceGap
  }

  /** Reference definition of the cursor: the x position at which slice i
      starts, i.e. the widths of all earlier slices plus the gap after each */
  function CursorBefore(widths: seq<nat>, cuts: seq<int>, start: int, i: nat): int
    requires i <= |widths|
  {
    if i == 0 then 0
    else CursorBefore(widths, cuts, start, i - 1) + widths[i - 1] + GapBefore(cuts, start + i)
  }

  /** One slice of the strip: the frame it reads, where it starts, and whether
      an image is put there */
  datatype Slot = Slot(frame: int, x: int, drawn: bool)

  /** Slot k holds frame `start + k`, starts at the reference cursor and is
      drawn exactly when its frame index is non-negative and the read was not
      empty */
  predicate SlotFits(s: Slot, k: nat, start: int, widths: seq<nat>, cuts: seq<int>, empty: seq<bool>)
    requires k < |widths| && k < |empty|
  {
    && s.frame == start + k
    && s.x == CursorBefore(widths, cuts, start, k)
    && (s.drawn <==> start + k >= 0 && !empty[k])
  }

  /** The slot/cursor loop of `updateOpencvVideoCanvas`. `widths` is what
      `getSliceWidthArrayForCut` returned and `empty[i]` says whether the i-th
      read from the video came back empty. */
  method Layout(view: SheetView, arraySize: int, currentFrame: int, cuts: seq<int>,
                widths: seq<nat>, empty: seq<bool>)
    returns (slots: seq<Slot>, endX: int)
    requires arraySize >= 1
    requires |widths| >= SliceCount(view, arraySize)
    requires |empty| >= SliceCount(view, arraySize)
    ensures |slots| == SliceCount(view, arraySize)
    ensures forall i :: 0 <= i < |slots| ==> slots[i].frame == WindowStart(view, arraySize, currentFrame) + i
    ensures forall i :: 0 <= i < |slots| ==> (slots[i].drawn <==> slots[i].frame >= 0 && !empty[i])
    ensures |slots| > 0 ==> slots[0].x == 0
    ensures forall i :: 0 <= i < |slots| - 1 ==>
      slots[i + 1].x == slots[i].x + widths[i] + (if slots[i + 1].frame in cuts then CutGap else SliceGap)
    ensures forall i, j :: 0 <= i < j < |slots| ==> slots[i].x + widths[i] < slots[j].x
    ensures forall i :: 0 <= i < |slots| ==> slots[i].x + widths[i] < endX
    ensures endX == CursorBefore(widths, cuts, WindowStart(view, arraySize, currentFrame), |slots|)
  {
    var start := WindowStart(view, arraySize, currentFrame);
    var n := SliceCount(view, arraySize);
    slots := [];
    var x := 0;
    var i := 0;
    while i < n
      invariant 0 <= i <= n
      invariant |slots| == i
      invariant x == CursorBefore(widths, cuts, start, i)
      invariant forall k :: 0 <= k < i ==> SlotFits(slots[k], k, start, widths, cuts, empty)
    {
      var drawn := start + i >= 0 && !empty[i];
      slots := slots + [Slot(start + i, x, drawn)];
      x := x + widths[i] + GapBefore(cuts, start + i + 1);
      i := i + 1;
    }
    endX := x;
    forall i | 0 <= i < |slots| - 1
      ensures slots[i + 1].x == slots[i].x + widths[i] + GapBefore(cuts, slots[i + 1].frame)
    {
      assert slots[i + 1].x == CursorBefore(widths, cuts, start, i + 1);
    }
    forall i, j | 0 <= i < j <= |slots|
      ensures CursorBefore(widths, cuts, start, i) + widths[i] < CursorBefore(widths, cuts, start, j)
    {
      CursorAdvances(widths, cuts, start, i, j);
    }
  }

  /** Slices never overlap: everything before slice j, including slice i and
      its gap, ends before slice j starts */
  lemma {:induction false} CursorAdvances(widths: seq<nat>, cuts: seq<int>, start: int, i: nat, j: nat)
    requires i < j <= |widths|
    ensures CursorBefore(widths, cuts, start, i) + widths[i] < CursorBefore(widths, cuts, start, j)
    decreases j
  {
    if i + 1 < j {
      CursorAdvances(widths, cuts, start, i, j - 1);
    }
  }

  /** Closed form of the cursor: the slice widths plus one pixel per slice
      plus seven more for every slice followed by a scene start */
  lemma {:induction false} CursorClosedForm(widths: seq<nat>, cuts: seq<int>, start: int, i: nat)
    requires i <= |widths|
    ensures CursorBefore(widths, cuts, start, i) == Sum(widths[..i]) + i + 7 * CutsAhead(cuts, start, i)
  {
    if i > 0 {
      CursorClosedForm(widths, cuts, start, i - 1);
      assert widths[..i] == widths[..i - 1] + [widths[i - 1]];
      SumAppend(widths[..i - 1], widths[i - 1]);
    }
  }

  function Sum(xs: seq<nat>): int {
    if |xs| == 0 then 0 else Sum(xs[..|xs| - 1]) + xs[|xs| - 1]
  }

  lemma SumAppend(xs: seq<nat>, x: nat)
    ensures Sum(xs + [x]) == Sum(xs) + x
  {
    assert (xs + [x])[..|xs|] == xs;
  }

  /** Number of slices among the first i whose successor's frame is a cut */
  function CutsAhead(cuts: seq<int>, start: int, i: nat): nat {
    if i == 0 then 0 else CutsAhead(cuts, start, i - 1) + (if start + i in cuts then 1 else 0)
  }

  /** The slice showing the current frame sits at `n / 2 - offsetCorrection`;
      in the timeline view an odd slice count puts as many frames before it as
      after it, in the grid view (an even count when the array size is odd)
      one more frame follows it than precedes it */
  lemma CurrentFrameSlot(view: SheetView, arraySize: int, currentFrame: int)
    requires arraySize >= 3
    ensures var n := SliceCount(view, arraySize);
            var k := n / 2 - (if view == GridView then 1 else 0);
            && 0 <= k < n
            && WindowStart(view, arraySize, currentFrame) + k == currentFrame
            && (view == TimelineView && arraySize % 2 == 1 ==> k == n - 1 - k)
            && (view == GridView && arraySize % 2 == 1 ==> n - 1 - k == k + 1)
  {
  }
}

=== FILE: utils.dfy ===
/** The helpers the player and the grid editor import from their utility
    module: range clamping, the integer ceiling behind `Math.ceil`, scene
    lookup by frame and thumb neighbours. The utility module itself is not
    part of this model; each helper here has the body its contract promises
    and nothing more. */
module Utils {
  import opened Wrappers

  // ---------------------------------------------------------------------------
  // Numbers
  // ---------------------------------------------------------------------------

  /** `limitRange(value, lower, upper)`, taken as `min(max(value, lower), upper)` */
  function Clamp(v: int, lo: int, hi: int): (r: int)
    ensures lo <= hi ==> lo <= r <= hi
    ensures lo <= v <= hi ==> r == v
    ensures v < lo && lo <= hi ==> r == lo
    ensures v > hi ==> r == hi
  {
    var atLeastLo := if v < lo then lo else v;
    if atLeastLo > hi then hi else atLeastLo
  }

  /** `Math.ceil(a / b)` for a positive divisor: the least q with a <= b * q */
  function CeilDiv(a: int, b: int): (q: int)
    requires b > 0
    ensures b * (q - 1) < a <= b * q
  {
    var t := (-a) / b;
    assert -a == b * t + (-a) % b;
    -t
  }

  /** The ceiling is the only integer satisfying the bracket of `CeilDiv` */
  lemma CeilDivUnique(a: int, b: int, q: int)
    requires b > 0
    requires b * (q - 1) < a <= b * q
    ensures CeilDiv(a, b) == q
  {
    var c := CeilDiv(a, b);
    if c < q {
      assert b * c <= b * (q - 1) by { MulMonotone(b, c, q - 1); }
    } else if c > q {
      assert b * q <= b * (c - 1) by { MulMonotone(b, q, c - 1); }
    }
  }

  /** A whole number of rows of width b needs exactly that many rows */
  lemma CeilDivOfMultiple(r: int, b: int)
    requires b > 0
    ensures CeilDiv(r * b, b) == r
  {
    assert b * (r - 1) == r * b - b;
    CeilDivUnique(r * b, b, r);
  }

  lemma MulMonotone(b: int, x: int, y: int)
    requires b > 0 && x <= y
    ensures b * x <= b * y
  {
    assert b * y - b * x == b * (y - x);
  }

  // ---------------------------------------------------------------------------
  // Scenes
  // ---------------------------------------------------------------------------

  /** A run of frames `[start, start + length)` between two cuts */
  datatype Scene = Scene(sceneId: int, start: int, length: int) {
    function End(): int { start + length }
    predicate Contains(f: int) { start <= f < End() }
  }

  /** Scenes in frame order, none empty, each starting where the previous ends */
  predicate Contiguous(scenes: seq<Scene>) {
    && (forall i :: 0 <= i < |scenes| ==> scenes[i].length > 0)
    && (forall i :: 0 < i < |scenes| ==> scenes[i - 1].End() == scenes[i].start)
  }

  /** A contiguous scene list that partitions `[0, frameCount)` */
  predicate Covers(scenes: seq<Scene>, frameCount: int) {
    && Contiguous(scenes)
    && |scenes| > 0
    && scenes[0].start == 0
    && scenes[|scenes| - 1].End() == frameCount
  }

  predicate UniqueSceneIds(scenes: seq<Scene>) {
    forall i, j :: 0 <= i < j < |scenes| ==> scenes[i].sceneId != scenes[j].sceneId
  }

  /** `getSceneFromFrameNumber(scenes, f)`: a scene of the list whose interval
      holds f, or None when no scene does */
  function SceneAt(scenes: seq<Scene>, f: int): (r: Option<Scene>)
    ensures r.Some? ==> r.value in scenes && r.value.Contains(f)
    ensures r.None? ==> forall i :: 0 <= i < |scenes| ==> !scenes[i].Contains(f)
  {
    if |scenes| == 0 then None
    else if scenes[0].Contains(f) then Some(scenes[0])
    else SceneAt(scenes[1..], f)
  }

  /** In a contiguous list an earlier scene ends no later than a later one starts */
  lemma {:induction false} ContiguousOrdered(scenes: seq<Scene>, i: int, j: int)
    requires Contiguous(scenes)
    requires 0 <= i < j < |scenes|
    ensures scenes[i].End() <= scenes[j].start
    decreases j - i
  {
    if i + 1 < j {
      ContiguousOrdered(scenes, i + 1, j);
      assert scenes[i + 1].start <= scenes[i + 1].End();
    }
  }

  /** At most one scene of a contiguous list holds a given frame */
  lemma ContainingSceneUnique(scenes: seq<Scene>, i: int, j: int, f: int)
    requires Contiguous(scenes)
    requires 0 <= i < |scenes| && 0 <= j < |scenes|
    requires scenes[i].Contains(f) && scenes[j].Contains(f)
    ensures i == j
  {
    if i < j {
      ContiguousOrdered(scenes, i, j);
    } else if j < i {
      ContiguousOrdered(scenes, j, i);
    }
  }

  /** In a contiguous list, the lookup returns THE scene holding the frame */
  lemma SceneAtFindsContaining(scenes: seq<Scene>, i: int, f: int)
    requires Contiguous(scenes)
    requires 0 <= i < |scenes| && scenes[i].Contains(f)
    ensures SceneAt(scenes, f) == Some(scenes[i])
  {
    var r := SceneAt(scenes, f);
    var k :| 0 <= k < |scenes| && scenes[k] == r.value;
    ContainingSceneUnique(scenes, i, k, f);
  }

  /** Every frame between the first start and the last end lies in some scene */
  lemma {:induction false} ContiguousHasNoGaps(scenes: seq<Scene>, f: int)
    requires Contiguous(scenes) && |scenes| > 0
    requires scenes[0].start <= f < scenes[|scenes| - 1].End()
    ensures exists i :: 0 <= i < |scenes| && scenes[i].Contains(f)
  {
    if f >= scenes[0].End() {
      var tail := scenes[1..];
      assert |tail| > 0;
      assert Contiguous(tail) by {
        forall i | 0 < i < |tail|
          ensures tail[i - 1].End() == tail[i].start
        {
          assert tail[i - 1] == scenes[i] && tail[i] == scenes[i + 1];
        }
      }
      assert tail[0].start == scenes[0].End();
      assert tail[|tail| - 1] == scenes[|scenes| - 1];
      ContiguousHasNoGaps(tail, f);
      var i :| 0 <= i < |tail| && tail[i].Contains(f);
      assert scenes[i + 1] == tail[i];
    } else {
      assert scenes[0].Contains(f);
    }
  }

  /** Lookup over a partition of `[0, frameCount)` succeeds exactly in range */
  lemma SceneAtInRange(scenes: seq<Scene>, frameCount: int, f: int)
    requires Covers(scenes, frameCount)
    ensures SceneAt(scenes, f).Some? <==> 0 <= f < frameCount
  {
    if 0 <= f < frameCount {
      ContiguousHasNoGaps(scenes, f);
    } else {
      forall i | 0 <= i < |scenes|
        ensures !scenes[i].Contains(f)
      {
        SceneWithinFrames(scenes, frameCount, i);
      }
    }
  }

  /** Each scene of a partition of `[0, frameCount)` lies inside it */
  lemma SceneWithinFrames(scenes: seq<Scene>, frameCount: int, i: int)
    requires Covers(scenes, frameCount)
    requires 0 <= i < |scenes|
    ensures 0 <= scenes[i].start && scenes[i].End() <= frameCount
  {
    if i > 0 {
      ContiguousOrdered(scenes, 0, i);
    }
    if i < |scenes| - 1 {
      ContiguousOrdered(scenes, i, |scenes| - 1);
    }
  }

  // ---------------------------------------------------------------------------
  // Thumbs
  // ---------------------------------------------------------------------------

  /** A user-placed marker; `index` is its ordering key */
  datatype Thumb = Thumb(thumbId: int, frameNumber: int, index: int)

  /** Thumbs listed in strictly increasing `index` order */
  predicate SortedByIndex(thumbs: seq<Thumb>) {
    forall i, j :: 0 <= i < j < |thumbs| ==> thumbs[i].index < thumbs[j].index
  }

  predicate UniqueThumbIds(thumbs: seq<Thumb>) {
    forall i, j :: 0 <= i < j < |thumbs| ==> thumbs[i].thumbId != thumbs[j].thumbId
  }

  /** Position of the first thumb carrying `id` */
  function PositionOf(thumbs: seq<Thumb>, id: int): (r: Option<nat>)
    ensures r.Some? ==> r.value < |thumbs| && thumbs[r.value].thumbId == id
    ensures r.Some? ==> forall j :: 0 <= j < r.value ==> thumbs[j].thumbId != id
    ensures r.None? ==> forall j :: 0 <= j < |thumbs| ==> thumbs[j].thumbId != id
  {
    if |thumbs| == 0 then None
    else if thumbs[0].thumbId == id then Some(0)
    else match PositionOf(thumbs[1..], id)
      case None => None
      case Some(p) => Some(p + 1)
  }

  /** `thumbs.find(thumb => thumb.thumbId === id)` */
  function FindThumb(thumbs: seq<Thumb>, id: int): (r: Option<Thumb>)
    ensures r.Some? ==> r.value in thumbs && r.value.thumbId == id
    ensures r.None? <==> forall j :: 0 <= j < |thumbs| ==> thumbs[j].thumbId != id
  {
    match PositionOf(thumbs, id)
    case None => None
    case Some(p) => Some(thumbs[p])
  }

  /** `getPreviousThumb(thumbs, id)`: the thumb listed just before the one
      carrying `id`, or None when it is first or absent */
  function PreviousThumb(thumbs: seq<Thumb>, id: int): (r: Option<Thumb>)
    ensures r.Some? ==> exists p :: 0 < p < |thumbs| && thumbs[p].thumbId == id && thumbs[p - 1] == r.value
    ensures r.None? ==> |thumbs| == 0 || thumbs[0].thumbId == id || FindThumb(thumbs, id).None?
  {
    match PositionOf(thumbs, id)
    case Some(p) => if p > 0 then Some(thumbs[p - 1]) else None
    case None => None
  }

  /** `getNextThumb(thumbs, id)`: the thumb listed just after the one carrying
      `id`, or None when it is last or absent */
  function NextThumb(thumbs: seq<Thumb>, id: int): (r: Option<Thumb>)
    ensures r.Some? ==> exists p :: 0 <= p < |thumbs| - 1 && thumbs[p].thumbId == id && thumbs[p + 1] == r.value
    ensures r.None? ==> |thumbs| == 0 || thumbs[|thumbs| - 1].thumbId == id || FindThumb(thumbs, id).None?
  {
    match PositionOf(thumbs, id)
    case Some(p) => if p + 1 < |thumbs| then Some(thumbs[p + 1]) else None
    case None => None
  }

  /** With distinct ids, the first position of an id is its only position */
  lemma PositionOfUnique(thumbs: seq<Thumb>, p: int)
    requires UniqueThumbIds(thumbs)
    requires 0 <= p < |thumbs|
    ensures PositionOf(thumbs, thumbs[p].thumbId) == Some(p)
  {
  }

  /** In an index-ordered list the previous thumb is the nearest one below by
      `index`: it has a smaller index and no thumb lies strictly between */
  lemma PreviousThumbIsNearestBelow(thumbs: seq<Thumb>, id: int, sel: Thumb)
    requires SortedByIndex(thumbs)
    requires FindThumb(thumbs, id) == Some(sel)
    ensures PreviousThumb(thumbs, id).Some? <==> exists t :: t in thumbs && t.index < sel.index
    ensures PreviousThumb(thumbs, id).Some? ==>
      var q := PreviousThumb(thumbs, id).value;
      q in thumbs && q.index < sel.index &&
      forall t :: t in thumbs && t.index < sel.index ==> t.index <= q.index
  {
    var p := PositionOf(thumbs, id).value;
    assert thumbs[p] == sel;
    forall t | t in thumbs && t.index < sel.index
      ensures p > 0 && t.index <= thumbs[p - 1].index
    {
      var k :| 0 <= k < |thumbs| && thumbs[k] == t;
      assert k < p;
    }
  }

  /** In an index-ordered list the next thumb is the nearest one above by
      `index` */
  lemma NextThumbIsNearestAbove(thumbs: seq<Thumb>, id: int, sel: Thumb)
    requires SortedByIndex(thumbs)
    requires FindThumb(thumbs, id) == Some(sel)
    ensures NextThumb(thumbs, id).Some? <==> exists t :: t in thumbs && t.index > sel.index
    ensures NextThumb(thumbs, id).Some? ==>
      var q := NextThumb(thumbs, id).value;
      q in thumbs && q.index > sel.index &&
      forall t :: t in thumbs && t.index > sel.index ==> q.index <= t.index
  {
    var p := PositionOf(thumbs, id).value;
    assert thumbs[p] == sel;
    forall t | t in thumbs && t.index > sel.index
      ensures p + 1 < |thumbs| && thumbs[p + 1].index <= t.index
    {
      var k :| 0 <= k < |thumbs| && thumbs[k] == t;
      assert k > p;
    }
  }

  /** Going to the next thumb and then back returns to the starting thumb */
  lemma NextThenPreviousThumb(thumbs: seq<Thumb>, id: int)
    requires UniqueThumbIds(thumbs)
    requires NextThumb(thumbs, id).Some?
    ensures PreviousThumb(thumbs, NextThumb(thumbs, id).value.thumbId) == FindThumb(thumbs, id)
  {
    var p := PositionOf(thumbs, id).value;
    PositionOfUnique(thumbs, p + 1);
  }

  /** Going to the previous thumb and then forward returns to the starting thumb */
  lemma PreviousThenNextThumb(thumbs: seq<Thumb>, id: int)
    requires UniqueThumbIds(thumbs)
    requires PreviousThumb(thumbs, id).Some?
    ensures NextThumb(thumbs, PreviousThumb(thumbs, id).value.thumbId) == FindThumb(thumbs, id)
  {
    var p := PositionOf(thumbs, id).value;
    PositionOfUnique(thumbs, p - 1);
  }
}

=== FILE: video_player.dfy ===
/** The frame navigation of the video player component: keyboard decoding,
    clamped frame stepping, jumps to scene boundaries and to neighbouring
    thumbs, the change-or-add decision and the cut/merge button. Each handler
    is a pure function from the state before the handler (the component reads
    its state before its own updates land) to the state after it plus the
    callbacks it fires, in order. */
module VideoPlayer {
  import opened Wrappers
  import opened Utils

  /** `SHEET_VIEW`: the thumb grid or the cut/merge timeline */
  datatype SheetView = GridView | TimelineView

  /** `SHEET_TYPE`: scene-based sheets or interval (free thumb) sheets */
  datatype SheetType = Scenes | Interval

  datatype Direction = Back | Forward

  /** `CHANGE_THUMB_STEP = [stepValue0, stepValue1, stepValue2]` */
  datatype StepTable = StepTable(small: int, normal: int, large: int)

  datatype Modifiers = Modifiers(shift: bool, alt: bool)

  /** A keydown: `event.which`, the modifier keys and `event.target.tagName` */
  datatype KeyEvent = KeyEvent(which: int, mods: Modifiers, targetTag: string)

  const KeyEnter: int := 13
  const KeyArrowLeft: int := 37
  const KeyArrowRight: int := 39

  /** What the player receives from its parent. `keyObject` is the modifier
      state the parent tracks, read by the change-or-add button. */
  datatype Props = Props(
    frameCount: int,
    scenes: seq<Scene>,
    arrayOfCuts: seq<int>,
    thumbs: seq<Thumb>,
    selectedThumb: Option<Thumb>,
    sheetType: SheetType,
    view: SheetView,
    keyObject: Modifiers,
    steps: StepTable)

  /** The player's own state. `currentScene == None` stands for the initial
      placeholder `{ start: 0, length: 0 }`, which has no `sceneId`. */
  datatype PlayerState = PlayerState(currentFrame: int, currentScene: Option<Scene>)

  /** Callbacks fired towards the parent, and the filmstrip redraw */
  datatype Effect =
    | SelectThumb(id: int)                              // onSelectThumbMethod
    | CutScene(frame: int)                              // onCutSceneClick
    | MergeScene(frame: int)                            // onMergeSceneClick
    | ChangeSceneThumb(sceneId: Option<int>, frame: int) // onChangeThumb for a scene
    | ChangeThumb(thumbId: int, frame: int)             // onChangeThumb for a thumb
    | AddThumb(thumbId: int, frame: int, insertAt: int) // onAddThumb
    | DrawFilmstrip(frame: int)                         // updateOpencvVideoCanvas

  datatype Update = Update(state: PlayerState, effects: seq<Effect>)

  /** What a keypress asks for */
  datatype Intent =
    | Ignore
    | StepBy(delta: int)
    | JumpScene(dir: Direction)
    | JumpThumb(dir: Direction)
    | CutAt(frame: int)
    | MergeAt(frame: int)
    | ChangeSceneThumbIntent
    | ChangeOrAddIntent

  /** Number of selection notifications among the effects */
  function SelectCount(effects: seq<Effect>): nat {
    if |effects| == 0 then 0
    else SelectCount(effects[..|effects| - 1]) + (if effects[|effects| - 1].SelectThumb? then 1 else 0)
  }

  lemma SelectCountAppend(a: seq<Effect>, b: seq<Effect>)
    ensures SelectCount(a + b) == SelectCount(a) + SelectCount(b)
    decreases |b|
  {
    if |b| > 0 {
      assert (a + b)[..|a + b| - 1] == a + b[..|b| - 1];
      SelectCountAppend(a, b[..|b| - 1]);
    } else {
      assert a + b == a;
    }
  }

  // ---------------------------------------------------------------------------
  // Position updates
  // ---------------------------------------------------------------------------

  /** Start and end of the current scene; the placeholder reads as 0 and 0 */
  function SceneStart(st: PlayerState): int {
    if st.currentScene.Some? then st.currentScene.value.start else 0
  }

  function SceneEnd(st: PlayerState): int {
    if st.currentScene.Some? then st.currentScene.value.End() else 0
  }

  /** The selection notification for a scene, if there is one */
  function Announce(scene: Option<Scene>): seq<Effect> {
    if scene.Some? then [SelectThumb(scene.value.sceneId)] else []
  }

  /** `updatePositionFromFrame(f)`: move to frame f; when the scene holding f
      exists and is not the current one, make it current and notify it. At
      most one notification fires, and the current scene changes only with it. */
  function FromFrame(p: Props, st: PlayerState, f: int): (u: Update)
    ensures u.state.currentFrame == f
    ensures |u.effects| <= 1 && SelectCount(u.effects) == |u.effects|
    ensures u.effects != [] <==>
      && SceneAt(p.scenes, f).Some?
      && (st.currentScene.None? || st.currentScene.value.sceneId != SceneAt(p.scenes, f).value.sceneId)
    ensures u.effects != [] ==>
      && u.effects == [SelectThumb(SceneAt(p.scenes, f).value.sceneId)]
      && u.state.currentScene == SceneAt(p.scenes, f)
    ensures u.effects == [] ==> u.state.currentScene == st.currentScene
  {
    var newScene := SceneAt(p.scenes, f);
    if newScene.Some? && (st.currentScene.None? || st.currentScene.value.sceneId != newScene.value.sceneId) then
      Update(PlayerState(f, newScene), [SelectThumb(newScene.value.sceneId)])
    else
      Update(PlayerState(f, st.currentScene), [])
  }

  /** `updatePositionWithStep(step)`: move by `step` frames, clamped to the
      video, then redraw the filmstrip there */
  function StepPosition(p: Props, st: PlayerState, step: int): (u: Update)
    ensures p.frameCount >= 1 ==> 0 <= u.state.currentFrame < p.frameCount
    ensures 0 <= st.currentFrame + step < p.frameCount ==> u.state.currentFrame == st.currentFrame + step
    ensures st.currentFrame + step < 0 && p.frameCount >= 1 ==> u.state.currentFrame == 0
    ensures st.currentFrame + step >= p.frameCount ==> u.state.currentFrame == p.frameCount - 1
    ensures SelectCount(u.effects) <= 1
    ensures |u.effects| > 0 && u.effects[|u.effects| - 1] == DrawFilmstrip(u.state.currentFrame)
    ensures u.effects == FromFrame(p, st, u.state.currentFrame).effects + [DrawFilmstrip(u.state.currentFrame)]
    ensures u.state == FromFrame(p, st, u.state.currentFrame).state
  {
    var target := Clamp(st.currentFrame + step, 0, p.frameCount - 1);
    var moved := FromFrame(p, st, target);
    SelectCountAppend(moved.effects, [DrawFilmstrip(target)]);
    Update(moved.state, moved.effects + [DrawFilmstrip(target)])
  }

  // ---------------------------------------------------------------------------
  // Scene jumps
  // ---------------------------------------------------------------------------

  /** The back jump from a scene start reads the scene before it without a
      check; it must exist */
  predicate SceneJumpDefined(p: Props, st: PlayerState, dir: Direction) {
    dir == Back && st.currentFrame == SceneStart(st) ==> SceneAt(p.scenes, SceneStart(st) - 1).Some?
  }

  /** `onNextSceneClickWithStop(e, dir, currentFrame)`. Back from inside a
      scene goes to its start; back from a start goes to the start of the
      scene before; forward goes to the end of the current scene. The landing
      frame is clamped to the video. */
  function JumpToScene(p: Props, st: PlayerState, dir: Direction): (u: Update)
    requires SceneJumpDefined(p, st, dir)
    ensures p.frameCount >= 1 ==> 0 <= u.state.currentFrame < p.frameCount
    ensures dir == Back && st.currentFrame != SceneStart(st) ==>
      && u.state.currentFrame == Clamp(SceneStart(st), 0, p.frameCount - 1)
      && u.effects == FromFrame(p, st, u.state.currentFrame).effects + [DrawFilmstrip(u.state.currentFrame)]
    ensures dir == Back && st.currentFrame == SceneStart(st) ==>
      var before := SceneAt(p.scenes, SceneStart(st) - 1).value;
      && u.state.currentFrame == Clamp(before.start, 0, p.frameCount - 1)
      && u.effects == [SelectThumb(before.sceneId)] + FromFrame(p, st, u.state.currentFrame).effects
                      + [DrawFilmstrip(u.state.currentFrame)]
    ensures dir == Forward ==>
      && u.state.currentFrame == Clamp(SceneEnd(st), 0, p.frameCount - 1)
      && u.effects == Announce(SceneAt(p.scenes, SceneEnd(st))) + FromFrame(p, st, u.state.currentFrame).effects
                      + [DrawFilmstrip(u.state.currentFrame)]
    ensures u.state == FromFrame(p, st, u.state.currentFrame).state
    ensures |u.effects| > 0 && u.effects[|u.effects| - 1] == DrawFilmstrip(u.state.currentFrame)
  {
    var start := SceneStart(st);
    var target :=
      if dir == Back && st.currentFrame != start then start
      else if dir == Back then SceneAt(p.scenes, start - 1).value.start
      else SceneEnd(st);
    var announced :=
      if dir == Back && st.currentFrame != start then None
      else if dir == Back then SceneAt(p.scenes, start - 1)
      else SceneAt(p.scenes, SceneEnd(st));
    var landing := Clamp(target, 0, p.frameCount - 1);
    var moved := FromFrame(p, st, landing);
    Update(moved.state, Announce(announced) + moved.effects + [DrawFilmstrip(landing)])
  }

  // ---------------------------------------------------------------------------
  // Thumb jumps
  // ---------------------------------------------------------------------------

  /** Frame whose scene the scene-sheet thumb jump selects */
  function NeighbourSceneFrame(st: PlayerState, dir: Direction): int {
    if dir == Back then SceneStart(st) - 1 else SceneEnd(st)
  }

  /** On a scene sheet the thumb jump reads the neighbouring scene's id, without
      a check, inside the callback that searches the thumbs; it must exist
      unless there are no thumbs, when the callback never runs */
  predicate ThumbJumpDefined(p: Props, st: PlayerState, dir: Direction) {
    p.sheetType == Scenes && |p.thumbs| > 0 ==> SceneAt(p.scenes, NeighbourSceneFrame(st, dir)).Some?
  }

  /** The selected thumb's neighbour in the given direction */
  function NeighbourThumb(p: Props, dir: Direction): Option<Thumb> {
    match p.selectedThumb
    case None => None
    case Some(sel) =>
      if dir == Back then PreviousThumb(p.thumbs, sel.thumbId) else NextThumb(p.thumbs, sel.thumbId)
  }

  /** Select a thumb, then move to its frame (clamped) and redraw */
  function GoToThumb(p: Props, st: PlayerState, id: int, frame: int): (u: Update)
    ensures u.state.currentFrame == Clamp(frame, 0, p.frameCount - 1)
    ensures u.effects == [SelectThumb(id)] + FromFrame(p, st, u.state.currentFrame).effects
                         + [DrawFilmstrip(u.state.currentFrame)]
    ensures u.state == FromFrame(p, st, u.state.currentFrame).state
  {
    var landing := Clamp(frame, 0, p.frameCount - 1);
    var moved := FromFrame(p, st, landing);
    Update(moved.state, [SelectThumb(id)] + moved.effects + [DrawFilmstrip(landing)])
  }

  /** `onNextThumbClickWithStop(e, dir, currentFrame)`. On an interval sheet:
      nothing without a selected thumb or without a neighbour; otherwise
      select the neighbour and land on its clamped frame. On a scene sheet:
      select the neighbouring scene and, when a thumb carries its id, land on
      that thumb's clamped frame; with no neighbouring scene (possible only
      without thumbs) nothing happens. */
  function JumpToThumb(p: Props, st: PlayerState, dir: Direction): (u: Update)
    requires ThumbJumpDefined(p, st, dir)
    ensures p.sheetType == Interval && NeighbourThumb(p, dir).None? ==> u == Update(st, [])
    ensures p.sheetType == Interval && NeighbourThumb(p, dir).Some? ==>
      var t := NeighbourThumb(p, dir).value;
      && t in p.thumbs
      && u == GoToThumb(p, st, t.thumbId, t.frameNumber)
    ensures p.sheetType == Scenes && SceneAt(p.scenes, NeighbourSceneFrame(st, dir)).None? ==>
      p.thumbs == [] && u == Update(st, [])
    ensures p.sheetType == Scenes && SceneAt(p.scenes, NeighbourSceneFrame(st, dir)).Some? ==>
      var scene := SceneAt(p.scenes, NeighbourSceneFrame(st, dir)).value;
      && (FindThumb(p.thumbs, scene.sceneId).None? ==> u == Update(st, [SelectThumb(scene.sceneId)]))
      && (FindThumb(p.thumbs, scene.sceneId).Some? ==>
            u == GoToThumb(p, st, scene.sceneId, FindThumb(p.thumbs, scene.sceneId).value.frameNumber))
  {
    if p.sheetType == Scenes then
      match SceneAt(p.scenes, NeighbourSceneFrame(st, dir))
      case None => Update(st, [])
      case Some(scene) =>
        match FindThumb(p.thumbs, scene.sceneId)
        case None => Update(st, [SelectThumb(scene.sceneId)])
        case Some(t) => GoToThumb(p, st, scene.sceneId, t.frameNumber)
    else
      match NeighbourThumb(p, dir)
      case None => Update(st, [])
      case Some(t) => GoToThumb(p, st, t.thumbId, t.frameNumber)
  }

  // ---------------------------------------------------------------------------
  // Change, add, cut and merge
  // ---------------------------------------------------------------------------

  /** `onChangeOrAddClick`: only when the selected thumb is in the list. With
      alt a new thumb goes after it (`index + 1`), with shift alone before it
      (`index`), and without either the selected thumb moves to the current
      frame. Adding also selects the new thumb. The search reads the selected
      thumb's id inside its callback, so a selected thumb is needed unless
      there are no thumbs. */
  function ChangeOrAdd(p: Props, st: PlayerState, newThumbId: int): (u: Update)
    requires |p.thumbs| > 0 ==> p.selectedThumb.Some?
    ensures u.state == st
    ensures p.thumbs == [] ==> u.effects == []
    ensures p.selectedThumb.Some? && FindThumb(p.thumbs, p.selectedThumb.value.thumbId).None? ==> u.effects == []
    ensures p.selectedThumb.Some? && FindThumb(p.thumbs, p.selectedThumb.value.thumbId).Some? ==>
      var t := FindThumb(p.thumbs, p.selectedThumb.value.thumbId).value;
      && (p.keyObject.alt ==>
            u.effects == [AddThumb(newThumbId, st.currentFrame, t.index + 1), SelectThumb(newThumbId)])
      && (!p.keyObject.alt && p.keyObject.shift ==>
            u.effects == [AddThumb(newThumbId, st.currentFrame, t.index), SelectThumb(newThumbId)])
      && (!p.keyObject.alt && !p.keyObject.shift ==>
            u.effects == [ChangeThumb(p.selectedThumb.value.thumbId, st.currentFrame)])
  {
    if p.selectedThumb.None? then Update(st, [])
    else
      var sel := p.selectedThumb.value;
      match FindThumb(p.thumbs, sel.thumbId)
      case None => Update(st, [])
      case Some(t) =>
        if p.keyObject.alt || p.keyObject.shift then
          var insertAt := if p.keyObject.alt then t.index + 1 else t.index;
          Update(st, [AddThumb(newThumbId, st.currentFrame, insertAt), SelectThumb(newThumbId)])
        else
          Update(st, [ChangeThumb(sel.thumbId, st.currentFrame)])
  }

  /** Label of the change-or-add button (shown on interval sheets) */
  function ChangeOrAddLabel(mods: Modifiers): string {
    if mods.alt then "ADD AFTER" else if mods.shift then "ADD BEFORE" else "CHANGE"
  }

  /** Whether the current frame is a cut: `arrayOfCuts.some(item => item === currentFrame)` */
  predicate IsCut(p: Props, frame: int) {
    frame in p.arrayOfCuts
  }

  /** The cut/merge button of the render: shown on a scene sheet in the
      timeline view away from frame 0, labelled MERGE on a cut and CUT
      elsewhere, and clicking it does what its label says */
  datatype CutMergeButton = CutMergeButton(caption: string, onClick: Intent)

  function CutMergeButtonOf(p: Props, st: PlayerState): (b: Option<CutMergeButton>)
    ensures b.Some? <==> p.sheetType == Scenes && p.view == TimelineView && st.currentFrame != 0
    ensures b.Some? ==> (b.value.caption == "MERGE" <==> IsCut(p, st.currentFrame))
    ensures b.Some? ==> (b.value.caption == "MERGE" ==> b.value.onClick == MergeAt(st.currentFrame))
    ensures b.Some? ==> (b.value.caption == "CUT" ==> b.value.onClick == CutAt(st.currentFrame))
    ensures b.Some? ==> b.value.caption in {"MERGE", "CUT"}
  {
    if p.sheetType == Scenes && p.view == TimelineView && st.currentFrame != 0 then
      if IsCut(p, st.currentFrame) then Some(CutMergeButton("MERGE", MergeAt(st.currentFrame)))
      else Some(CutMergeButton("CUT", CutAt(st.currentFrame)))
    else None
  }

  // ---------------------------------------------------------------------------
  // Keyboard
  // ---------------------------------------------------------------------------

  predicate IsArrow(ev: KeyEvent) {
    ev.which == KeyArrowLeft || ev.which == KeyArrowRight
  }

  function ArrowDirection(ev: KeyEvent): Direction {
    if ev.which == KeyArrowLeft then Back else Forward
  }

  /** The step an arrow key asks for: normal, shift picks small, alt picks large */
  function ArrowStep(steps: StepTable, ev: KeyEvent): int {
    var magnitude :=
      if ev.mods.alt then steps.large else if ev.mods.shift then steps.small else steps.normal;
    if ev.which == KeyArrowLeft then -magnitude else magnitude
  }

  /** `handleKeyPress`, decoded: what a keydown asks the player to do */
  function DecodeKey(p: Props, currentFrame: int, ev: KeyEvent): (i: Intent)
    ensures ev.targetTag == "INPUT" ==> i == Ignore
    ensures ev.which != KeyEnter && !IsArrow(ev) ==> i == Ignore
    ensures ev.targetTag != "INPUT" && IsArrow(ev) ==>
      var sign := if ev.which == KeyArrowLeft then -1 else 1;
      && (!ev.mods.shift && !ev.mods.alt ==> i == StepBy(sign * p.steps.normal))
      && (ev.mods.shift && !ev.mods.alt ==> i == StepBy(sign * p.steps.small))
      && (!ev.mods.shift && ev.mods.alt ==> i == StepBy(sign * p.steps.large))
      && (ev.mods.shift && ev.mods.alt ==>
            i == (if p.view == TimelineView then JumpScene(ArrowDirection(ev)) else JumpThumb(ArrowDirection(ev))))
    ensures ev.targetTag != "INPUT" && ev.which == KeyEnter && p.view == TimelineView ==>
      (i == MergeAt(currentFrame) <==> IsCut(p, currentFrame)) &&
      (i == CutAt(currentFrame) <==> !IsCut(p, currentFrame))
    ensures ev.targetTag != "INPUT" && ev.which == KeyEnter && p.view == GridView ==>
      i == (if p.sheetType == Scenes then ChangeSceneThumbIntent else ChangeOrAddIntent)
  {
    if ev.targetTag == "INPUT" then Ignore
    else if ev.which == KeyEnter then
      if p.view == TimelineView then
        if IsCut(p, currentFrame) then MergeAt(currentFrame) else CutAt(currentFrame)
      else if p.sheetType == Scenes then ChangeSceneThumbIntent
      else ChangeOrAddIntent
    else if IsArrow(ev) then
      if ev.mods.shift && ev.mods.alt then
        if p.view == TimelineView then JumpScene(ArrowDirection(ev)) else JumpThumb(ArrowDirection(ev))
      else StepBy(ArrowStep(p.steps, ev))
    else Ignore
  }

  /** Intents whose handler can run without dereferencing a missing value */
  predicate IntentDefined(p: Props, st: PlayerState, intent: Intent) {
    match intent
    case JumpScene(dir) => SceneJumpDefined(p, st, dir)
    case JumpThumb(dir) => ThumbJumpDefined(p, st, dir)
    case ChangeOrAddIntent => |p.thumbs| > 0 ==> p.selectedThumb.Some?
    case _ => true
  }

  /** Run the handler an intent names */
  function Perform(p: Props, st: PlayerState, intent: Intent, newThumbId: int): (u: Update)
    requires IntentDefined(p, st, intent)
    ensures intent.Ignore? ==> u == Update(st, [])
    ensures intent.StepBy? ==> u == StepPosition(p, st, intent.delta)
    ensures intent.JumpScene? ==> u == JumpToScene(p, st, intent.dir)
    ensures intent.JumpThumb? ==> u == JumpToThumb(p, st, intent.dir)
    ensures intent.CutAt? ==> u == Update(st, [CutScene(intent.frame)])
    ensures intent.MergeAt? ==> u == Update(st, [MergeScene(intent.frame)])
    ensures intent.ChangeSceneThumbIntent? && st.currentScene.Some? ==>
      u == Update(st, [ChangeSceneThumb(Some(st.currentScene.value.sceneId), st.currentFrame)])
    ensures intent.ChangeSceneThumbIntent? && st.currentScene.None? ==>
      u == Update(st, [ChangeSceneThumb(None, st.currentFrame)])
    ensures intent.ChangeOrAddIntent? ==> u == ChangeOrAdd(p, st, newThumbId)
    ensures intent.CutAt? || intent.MergeAt? || intent.ChangeSceneThumbIntent? || intent.ChangeOrAddIntent? ==>
      u.state == st
  {
    match intent
    case Ignore => Update(st, [])
    case StepBy(delta) => StepPosition(p, st, delta)
    case JumpScene(dir) => JumpToScene(p, st, dir)
    case JumpThumb(dir) => JumpToThumb(p, st, dir)
    case CutAt(f) => Update(st, [CutScene(f)])
    case MergeAt(f) => Update(st, [MergeScene(f)])
    case ChangeSceneThumbIntent =>
      var id := if st.currentScene.Some? then Some(st.currentScene.value.sceneId) else None;
      Update(st, [ChangeSceneThumb(id, st.currentFrame)])
    case ChangeOrAddIntent => ChangeOrAdd(p, st, newThumbId)
  }

  predicate KeyPressDefined(p: Props, st: PlayerState, ev: KeyEvent) {
    IntentDefined(p, st, DecodeKey(p, st.currentFrame, ev))
  }

  /** `handleKeyPress(event)`; `newThumbId` is the id the handler would draw
      from `uuidV4()` if it adds a thumb */
  function KeyPress(p: Props, st: PlayerState, ev: KeyEvent, newThumbId: int): (u: Update)
    requires KeyPressDefined(p, st, ev)
    ensures ev.targetTag == "INPUT" ==> u == Update(st, [])
    ensures ev.which != KeyEnter && !IsArrow(ev) ==> u == Update(st, [])
    ensures ev.targetTag != "INPUT" && IsArrow(ev) && !(ev.mods.shift && ev.mods.alt) ==>
      u == StepPosition(p, st, ArrowStep(p.steps, ev))
    ensures ev.targetTag != "INPUT" && IsArrow(ev) && ev.mods.shift && ev.mods.alt && p.view == TimelineView ==>
      u == JumpToScene(p, st, ArrowDirection(ev))
    ensures ev.targetTag != "INPUT" && IsArrow(ev) && ev.mods.shift && ev.mods.alt && p.view == GridView ==>
      u == JumpToThumb(p, st, ArrowDirection(ev))
    ensures ev.targetTag != "INPUT" && ev.which == KeyEnter && p.view == TimelineView ==>
      && u.state == st
      && u.effects == (if IsCut(p, st.currentFrame) then [MergeScene(st.currentFrame)]
                       else [CutScene(st.currentFrame)])
    ensures ev.targetTag != "INPUT" && ev.which == KeyEnter && p.view == GridView && p.sheetType == Scenes ==>
      && u.state == st
      && u.effects == [ChangeSceneThumb(if st.currentScene.Some? then Some(st.currentScene.value.sceneId) else None,
                                        st.currentFrame)]
    ensures ev.targetTag != "INPUT" && ev.which == KeyEnter && p.view == GridView && p.sheetType == Interval ==>
      u == ChangeOrAdd(p, st, newThumbId)
  {
    Perform(p, st, DecodeKey(p, st.currentFrame, ev), newThumbId)
  }
}

=== FILE: video_player_lemmas.dfy ===
/** Properties that relate several player handlers to each other, to the
    scene list and to the buttons of the render. */
module VideoPlayerLemmas {
  import opened Wrappers
  import opened Utils
  import opened VideoPlayer

  /** A scene list the player can navigate: a partition of the video's frames
      with distinct ids */
  predicate GoodScenes(p: Props) {
    Covers(p.scenes, p.frameCount) && UniqueSceneIds(p.scenes)
  }

  /** The current scene, unless it is still the placeholder, is one of the list */
  predicate Tracked(p: Props, st: PlayerState) {
    st.currentScene.Some? ==> st.currentScene.value in p.scenes
  }

  /** The current scene is the scene that holds the current frame */
  predicate Settled(p: Props, st: PlayerState) {
    SceneAt(p.scenes, st.currentFrame).Some? && st.currentScene == SceneAt(p.scenes, st.currentFrame)
  }

  lemma PartitionHasFrames(p: Props)
    requires Covers(p.scenes, p.frameCount)
    ensures p.frameCount >= 1
  {
    SceneWithinFrames(p.scenes, p.frameCount, |p.scenes| - 1);
  }

  // ---------------------------------------------------------------------------
  // Position updates keep the current scene in sync with the current frame
  // ---------------------------------------------------------------------------

  /** Moving to any frame of the video leaves the scene holding that frame
      current, whether or not a notification fired */
  lemma FromFrameSettles(p: Props, st: PlayerState, f: int)
    requires GoodScenes(p) && Tracked(p, st)
    requires 0 <= f < p.frameCount
    ensures Settled(p, FromFrame(p, st, f).state)
  {
    SceneAtInRange(p.scenes, p.frameCount, f);
    var ns := SceneAt(p.scenes, f).value;
    if FromFrame(p, st, f).effects == [] {
      var cs := st.currentScene.value;
      var a :| 0 <= a < |p.scenes| && p.scenes[a] == cs;
      var b :| 0 <= b < |p.scenes| && p.scenes[b] == ns;
      assert a == b;
    }
  }

  /** Moving to the frame the player is already on, once settled there, fires
      nothing and changes nothing */
  lemma FromFrameIdempotent(p: Props, st: PlayerState, f: int)
    ensures var u := FromFrame(p, st, f);
            FromFrame(p, u.state, f) == Update(u.state, [])
  {
  }

  /** Stepping by d and then by -d inside the video returns to the same frame
      and, from a settled state, to the same state */
  lemma StepThereAndBack(p: Props, st: PlayerState, d: int)
    requires GoodScenes(p) && Settled(p, st)
    requires 0 <= st.currentFrame + d < p.frameCount
    ensures StepPosition(p, StepPosition(p, st, d).state, -d).state == st
  {
    SceneAtInRange(p.scenes, p.frameCount, st.currentFrame);
    var mid := StepPosition(p, st, d).state;
    FromFrameSettles(p, st, st.currentFrame + d);
    FromFrameSettles(p, mid, st.currentFrame);
  }

  /** Every handler a key can reach either leaves the state alone or leaves
      the current scene equal to the scene holding the new current frame */
  lemma KeyPressKeepsSceneInSync(p: Props, st: PlayerState, ev: KeyEvent, newThumbId: int)
    requires GoodScenes(p) && Tracked(p, st)
    requires KeyPressDefined(p, st, ev)
    ensures var u := KeyPress(p, st, ev, newThumbId);
            u.state == st || Settled(p, u.state)
  {
    PartitionHasFrames(p);
    var u := KeyPress(p, st, ev, newThumbId);
    if u.state != st {
      assert 0 <= u.state.currentFrame < p.frameCount;
      FromFrameSettles(p, st, u.state.currentFrame);
    }
  }

  // ---------------------------------------------------------------------------
  // Scene jumps
  // ---------------------------------------------------------------------------

  /** Back from inside a scene lands on that scene's start and notifies nobody */
  lemma BackInsideSceneLandsOnStart(p: Props, st: PlayerState, i: int)
    requires GoodScenes(p)
    requires 0 <= i < |p.scenes| && st.currentScene == Some(p.scenes[i])
    requires st.currentFrame != p.scenes[i].start
    ensures JumpToScene(p, st, Back) ==
      Update(PlayerState(p.scenes[i].start, Some(p.scenes[i])), [DrawFilmstrip(p.scenes[i].start)])
  {
    SceneWithinFrames(p.scenes, p.frameCount, i);
    SceneAtFindsContaining(p.scenes, i, p.scenes[i].start);
  }

  /** Back from a scene's start lands on the start of the scene before it,
      which becomes current; it is notified twice, once by the jump and once
      by the position update */
  lemma BackFromStartLandsOnPreviousScene(p: Props, st: PlayerState, i: int)
    requires GoodScenes(p)
    requires 0 < i < |p.scenes| && st.currentScene == Some(p.scenes[i])
    requires st.currentFrame == p.scenes[i].start
    ensures SceneJumpDefined(p, st, Back)
    ensures var prev := p.scenes[i - 1];
            JumpToScene(p, st, Back) ==
              Update(PlayerState(prev.start, Some(prev)),
                     [SelectThumb(prev.sceneId), SelectThumb(prev.sceneId), DrawFilmstrip(prev.start)])
  {
    var prev := p.scenes[i - 1];
    SceneWithinFrames(p.scenes, p.frameCount, i - 1);
    SceneAtFindsContaining(p.scenes, i - 1, p.scenes[i].start - 1);
    SceneAtFindsContaining(p.scenes, i - 1, prev.start);
  }

  /** Forward from a scene other than the last lands on the next scene's
      start, which becomes current (notified twice) */
  lemma ForwardLandsOnNextScene(p: Props, st: PlayerState, i: int)
    requires GoodScenes(p)
    requires 0 <= i < |p.scenes| - 1 && st.currentScene == Some(p.scenes[i])
    ensures var next := p.scenes[i + 1];
            JumpToScene(p, st, Forward) ==
              Update(PlayerState(next.start, Some(next)),
                     [SelectThumb(next.sceneId), SelectThumb(next.sceneId), DrawFilmstrip(next.start)])
  {
    var next := p.scenes[i + 1];
    SceneWithinFrames(p.scenes, p.frameCount, i + 1);
    SceneAtFindsContaining(p.scenes, i + 1, next.start);
  }

  /** Forward from the last scene clamps to the last frame and notifies nobody */
  lemma ForwardFromLastSceneStopsAtLastFrame(p: Props, st: PlayerState)
    requires GoodScenes(p)
    requires st.currentScene == Some(p.scenes[|p.scenes| - 1])
    ensures JumpToScene(p, st, Forward) ==
      Update(PlayerState(p.frameCount - 1, st.currentScene), [DrawFilmstrip(p.frameCount - 1)])
  {
    var last := |p.scenes| - 1;
    SceneAtInRange(p.scenes, p.frameCount, p.frameCount);
    PartitionHasFrames(p);
    assert p.scenes[last].Contains(p.frameCount - 1);
    SceneAtFindsContaining(p.scenes, last, p.frameCount - 1);
  }

  /** Back twice from inside scene i lands first on its start, then on the
      start of scene i - 1 */
  lemma BackTwiceFromInsideScene(p: Props, st: PlayerState, i: int)
    requires GoodScenes(p)
    requires 0 < i < |p.scenes| && st.currentScene == Some(p.scenes[i])
    requires st.currentFrame != p.scenes[i].start
    ensures var first := JumpToScene(p, st, Back);
            && first.state.currentFrame == p.scenes[i].start
            && SceneJumpDefined(p, first.state, Back)
            && JumpToScene(p, first.state, Back).state == PlayerState(p.scenes[i - 1].start, Some(p.scenes[i - 1]))
  {
    BackInsideSceneLandsOnStart(p, st, i);
    var first := JumpToScene(p, st, Back);
    BackFromStartLandsOnPreviousScene(p, first.state, i);
  }

  /** Forward then back returns to the start of the scene the player was in */
  lemma ForwardThenBackReturnsToSceneStart(p: Props, st: PlayerState, i: int)
    requires GoodScenes(p)
    requires 0 <= i < |p.scenes| - 1 && st.currentScene == Some(p.scenes[i])
    ensures var there := JumpToScene(p, st, Forward);
            && SceneJumpDefined(p, there.state, Back)
            && JumpToScene(p, there.state, Back).state == PlayerState(p.scenes[i].start, Some(p.scenes[i]))
  {
    ForwardLandsOnNextScene(p, st, i);
    var there := JumpToScene(p, st, Forward);
    BackFromStartLandsOnPreviousScene(p, there.state, i + 1);
  }

  /** Every notification a scene jump fires names the scene that holds the
      frame it lands on, and that scene is current afterwards */
  lemma SceneJumpSelectsLandingScene(p: Props, st: PlayerState, dir: Direction)
    requires GoodScenes(p) && Tracked(p, st)
    requires SceneJumpDefined(p, st, dir)
    ensures var u := JumpToScene(p, st, dir);
            && Settled(p, u.state)
            && forall k :: 0 <= k < |u.effects| && u.effects[k].SelectThumb? ==>
                 u.effects[k].id == SceneAt(p.scenes, u.state.currentFrame).value.sceneId
  {
    PartitionHasFrames(p);
    var u := JumpToScene(p, st, dir);
    var landing := u.state.currentFrame;
    FromFrameSettles(p, st, landing);
    var start := SceneStart(st);
    if dir == Back && st.currentFrame == start {
      var before := SceneAt(p.scenes, start - 1).value;
      var b :| 0 <= b < |p.scenes| && p.scenes[b] == before;
      SceneWithinFrames(p.scenes, p.frameCount, b);
      SceneAtFindsContaining(p.scenes, b, before.start);
    } else if dir == Forward && SceneAt(p.scenes, SceneEnd(st)).Some? {
      SceneAtInRange(p.scenes, p.frameCount, SceneEnd(st));
    }
  }

  // ---------------------------------------------------------------------------
  // Thumb jumps
  // ---------------------------------------------------------------------------

  /** On an interval sheet with thumbs in `index` order, the forward jump
      selects the thumb with the nearest larger index, and does nothing when
      there is none */
  lemma IntervalForwardJumpFollowsIndexOrder(p: Props, st: PlayerState, sel: Thumb)
    requires p.sheetType == Interval && SortedByIndex(p.thumbs)
    requires p.selectedThumb == Some(sel) && FindThumb(p.thumbs, sel.thumbId) == Some(sel)
    ensures var u := JumpToThumb(p, st, Forward);
            && (u == Update(st, []) <==> forall t :: t in p.thumbs ==> t.index <= sel.index)
            && (u != Update(st, []) ==>
                  exists q :: q in p.thumbs && q.index > sel.index
                    && u.effects[0] == SelectThumb(q.thumbId)
                    && (forall t :: t in p.thumbs && t.index > sel.index ==> q.index <= t.index))
  {
    NextThumbIsNearestAbove(p.thumbs, sel.thumbId, sel);
    var u := JumpToThumb(p, st, Forward);
    if NextThumb(p.thumbs, sel.thumbId).Some? {
      var q := NextThumb(p.thumbs, sel.thumbId).value;
      assert u.effects[0] == SelectThumb(q.thumbId);
      assert u != Update(st, []);
    }
  }

  /** On an interval sheet with thumbs in `index` order, the back jump
      selects the thumb with the nearest smaller index, and does nothing when
      there is none */
  lemma IntervalBackJumpFollowsIndexOrder(p: Props, st: PlayerState, sel: Thumb)
    requires p.sheetType == Interval && SortedByIndex(p.thumbs)
    requires p.selectedThumb == Some(sel) && FindThumb(p.thumbs, sel.thumbId) == Some(sel)
    ensures var u := JumpToThumb(p, st, Back);
            && (u == Update(st, []) <==> forall t :: t in p.thumbs ==> t.index >= sel.index)
            && (u != Update(st, []) ==>
                  exists q :: q in p.thumbs && q.index < sel.index
                    && u.effects[0] == SelectThumb(q.thumbId)
                    && (forall t :: t in p.thumbs && t.index < sel.index ==> t.index <= q.index))
  {
    PreviousThumbIsNearestBelow(p.thumbs, sel.thumbId, sel);
    var u := JumpToThumb(p, st, Back);
    if PreviousThumb(p.thumbs, sel.thumbId).Some? {
      var q := PreviousThumb(p.thumbs, sel.thumbId).value;
      assert u.effects[0] == SelectThumb(q.thumbId);
      assert u != Update(st, []);
    }
  }

  /** Jumping to the next thumb and, once the parent has selected it, back
      again selects the original thumb and lands on its (clamped) frame */
  lemma IntervalThumbJumpRoundTrip(p: Props, st: PlayerState, sel: Thumb)
    requires p.sheetType == Interval && UniqueThumbIds(p.thumbs)
    requires p.selectedThumb == Some(sel) && FindThumb(p.thumbs, sel.thumbId) == Some(sel)
    requires NextThumb(p.thumbs, sel.thumbId).Some?
    ensures var next := NextThumb(p.thumbs, sel.thumbId).value;
            var there := JumpToThumb(p, st, Forward);
            var p' := p.(selectedThumb := Some(next));
            var back := JumpToThumb(p', there.state, Back);
            && there.effects[0] == SelectThumb(next.thumbId)
            && back.effects[0] == SelectThumb(sel.thumbId)
            && back.state.currentFrame == Clamp(sel.frameNumber, 0, p.frameCount - 1)
  {
    NextThenPreviousThumb(p.thumbs, sel.thumbId);
  }

  // ---------------------------------------------------------------------------
  // Keyboard, buttons and the cut set
  // ---------------------------------------------------------------------------

  /** The left arrow asks for exactly the negated step of the right arrow
      under the same modifiers, and both jump instead when shift and alt are
      held together */
  lemma ArrowKeysAreMirrored(p: Props, f: int, mods: Modifiers, tag: string)
    requires tag != "INPUT"
    ensures var left := DecodeKey(p, f, KeyEvent(KeyArrowLeft, mods, tag));
            var right := DecodeKey(p, f, KeyEvent(KeyArrowRight, mods, tag));
            && (left.StepBy? <==> right.StepBy?)
            && (left.StepBy? ==> left.delta == -right.delta)
            && (!left.StepBy? ==> left.dir == Back && right.dir == Forward)
  {
  }

  /** With the step table `[1, 10, 100]` the arrow keys move by what the
      matching on-screen buttons' tooltips announce: shift one frame, no
      modifier ten frames, alt a hundred frames */
  lemma StepTableMatchesButtonTooltips(p: Props, f: int, tag: string)
    requires p.steps == StepTable(1, 10, 100) && tag != "INPUT"
    ensures DecodeKey(p, f, KeyEvent(KeyArrowLeft, Modifiers(true, false), tag)) == StepBy(-1)
    ensures DecodeKey(p, f, KeyEvent(KeyArrowRight, Modifiers(true, false), tag)) == StepBy(1)
    ensures DecodeKey(p, f, KeyEvent(KeyArrowLeft, Modifiers(false, false), tag)) == StepBy(-10)
    ensures DecodeKey(p, f, KeyEvent(KeyArrowRight, Modifiers(false, false), tag)) == StepBy(10)
    ensures DecodeKey(p, f, KeyEvent(KeyArrowLeft, Modifiers(false, true), tag)) == StepBy(-100)
    ensures DecodeKey(p, f, KeyEvent(KeyArrowRight, Modifiers(false, true), tag)) == StepBy(100)
  {
  }

  /** Whenever the cut/merge button is shown, Enter does what clicking it does */
  lemma EnterMatchesCutMergeButton(p: Props, st: PlayerState, mods: Modifiers, tag: string)
    requires tag != "INPUT"
    requires CutMergeButtonOf(p, st).Some?
    ensures DecodeKey(p, st.currentFrame, KeyEvent(KeyEnter, mods, tag)) == CutMergeButtonOf(p, st).value.onClick
  {
  }

  /** Enter in the timeline view still asks for a cut at frame 0, where the
      button is hidden */
  lemma EnterCutsAtFrameZero(p: Props, st: PlayerState, mods: Modifiers, tag: string)
    requires tag != "INPUT" && p.view == TimelineView && st.currentFrame == 0
    requires !IsCut(p, 0)
    ensures CutMergeButtonOf(p, st).None?
    ensures KeyPress(p, st, KeyEvent(KeyEnter, mods, tag), 0) == Update(st, [CutScene(0)])
  {
  }

  /** The cut set derived from a scene list: every scene start except 0 */
  function CutsOf(scenes: seq<Scene>): seq<int> {
    if |scenes| == 0 then []
    else (if scenes[0].start != 0 then [scenes[0].start] else []) + CutsOf(scenes[1..])
  }

  lemma {:induction false} CutsOfAreNonZeroStarts(scenes: seq<Scene>, f: int)
    ensures f in CutsOf(scenes) <==> f != 0 && exists i :: 0 <= i < |scenes| && scenes[i].start == f
  {
    if |scenes| > 0 {
      CutsOfAreNonZeroStarts(scenes[1..], f);
      if f != 0 && (exists i :: 0 <= i < |scenes| && scenes[i].start == f) {
        var i :| 0 <= i < |scenes| && scenes[i].start == f;
        if i > 0 {
          assert scenes[1..][i - 1].start == f;
        }
      }
      if f in CutsOf(scenes[1..]) {
        var i :| 0 <= i < |scenes[1..]| && scenes[1..][i].start == f;
        assert scenes[i + 1].start == f;
      }
    }
  }

  /** With the cut set derived from the scenes, Enter in the timeline view
      merges exactly at the start of a scene other than the first and cuts
      everywhere else */
  lemma EnterMergesExactlyAtSceneStarts(p: Props, st: PlayerState, mods: Modifiers, tag: string)
    requires tag != "INPUT" && p.view == TimelineView
    requires p.arrayOfCuts == CutsOf(p.scenes)
    ensures var u := KeyPress(p, st, KeyEvent(KeyEnter, mods, tag), 0);
            && (u.effects == [MergeScene(st.currentFrame)] <==>
                  st.currentFrame != 0 && exists i :: 0 <= i < |p.scenes| && p.scenes[i].start == st.currentFrame)
            && (u.effects != [MergeScene(st.currentFrame)] ==> u.effects == [CutScene(st.currentFrame)])
  {
    CutsOfAreNonZeroStarts(p.scenes, st.currentFrame);
  }

  /** The change-or-add button's caption names what a click does: ADD AFTER
      inserts at the selected thumb's index + 1, ADD BEFORE at its index and
      CHANGE moves the selected thumb to the current frame */
  lemma ChangeOrAddCaptionMatchesAction(p: Props, st: PlayerState, newThumbId: int)
    requires p.selectedThumb.Some?
    requires FindThumb(p.thumbs, p.selectedThumb.value.thumbId).Some?
    ensures var t := FindThumb(p.thumbs, p.selectedThumb.value.thumbId).value;
            var es := ChangeOrAdd(p, st, newThumbId).effects;
            && (ChangeOrAddLabel(p.keyObject) == "ADD AFTER" <==>
                  es[0] == AddThumb(newThumbId, st.currentFrame, t.index + 1))
            && (ChangeOrAddLabel(p.keyObject) == "ADD BEFORE" <==>
                  es[0] == AddThumb(newThumbId, st.currentFrame, t.index))
            && (ChangeOrAddLabel(p.keyObject) == "CHANGE" <==>
                  es == [ChangeThumb(p.selectedThumb.value.thumbId, st.currentFrame)])
  {
  }
}

=== FILE: wrappers.dfy ===
/** The JavaScript `undefined` that the player's lookups return when nothing
    matches, as an explicit Some/None datatype. */
module Wrappers {

  datatype Option<+T> = None | Some(value: T)
}
